=== FILE: README.md ===
# Weather client core, modelled in Dafny

This project models the logic of a small React Native weather client for the
OpenWeatherMap API: the persisted list of favorite cities and the buttons that
toggle a favorite, the search session that fetches current weather and then
the forecast, the selection of one forecast sample per day, the icon-code and
time-of-day classifiers, the request and icon URLs, the trimmed search
submission and the metric/imperial switch. Everything is a pure function over
immutable datatypes. The network, storage, the clock and React's scheduling are
replaced by inputs.

Modules, one per source component:

- `Favorites` (`favorites.dfy`): `FavoriteCity`, add / remove / update / isFavorite and the derived id.
- `FavoritesProvider` (`favorites_provider.dfy`): the load-on-mount / save-on-change lifecycle around the store.
- `FavoriteToggle` (`favorite_toggle.dfy`): `FavoriteButton` and `FavoriteManager` presses composed with the store.
- `ForecastList` (`forecast_list.dfy`): the per-day reduce and the cap at five days.
- `WeatherStyles` (`weather_styles.dfy`): `CurrentWeather` and `ForecastItem` classifiers, labels and clock arithmetic.
- `WeatherApi` (`weather_api.dfy`): request URLs, the status check, the icon URL and the response types.
- `WeatherSession` (`weather_session.dfy`): the `useWeather` hook's state machine.
- `SearchBar` (`search_bar.dfy`) and `UnitToggle` (`unit_toggle.dfy`).
- `Text` (`text.dfy`) and `Options` (`options.dfy`): ASCII lower-casing, ECMAScript trim, substring search, `Option`.

Assumptions: `toLowerCase` is modelled as ASCII lower-casing. `trim` removes
exactly the ECMAScript WhiteSpace and LineTerminator characters. Temperatures
and timestamps are integers, with temperatures already rounded.

## Model

| member | source | states |
|---|---|---|
| Favorites.Add | app/context/FavoritesContext.tsx:71-84 | The id is present afterwards. Earlier entries stay as a prefix in the same order. The list is unchanged exactly when the id was already stored; otherwise the city is appended at the end. |
| Favorites.AddIdempotent | app/context/FavoritesContext.tsx:74-82 | Adding the same city twice equals adding it once. |
| Favorites.Remove | app/context/FavoritesContext.tsx:87-91 | No entry has the id afterwards. An entry survives exactly when it was stored with another id. Survivors keep their relative order, and the length drops by the number of matching entries. |
| Favorites.RemoveAbsentIsNoop | app/context/FavoritesContext.tsx:87-91 | Removing an id that is not stored leaves the list unchanged. |
| Favorites.RemoveUndoesAdd | app/context/FavoritesContext.tsx:71-91 | Removing the id of a city just appended restores the list from before the add. |
| Favorites.Update | app/context/FavoritesContext.tsx:94-100 | Length and every id are kept. Entries with another id are untouched, and matching entries get the merge. An absent id changes nothing, so update never inserts. |
| Favorites.Merge | app/context/FavoritesContext.tsx:97 | Shallow spread: required keys come from the patch. An optional key written in the patch, even as undefined, overrides the stored value; a key left out keeps it. |
| Favorites.FullPatchReplaces | app/context/FavoritesContext.tsx:97 | A patch that writes every key replaces the matching record outright. |
| Favorites.AddKeepsUnique | app/context/FavoritesContext.tsx:71-84 | Distinct ids stay distinct after add. |
| Favorites.RemoveKeepsUnique | app/context/FavoritesContext.tsx:87-91 | Distinct ids stay distinct after remove. |
| Favorites.UpdateKeepsUnique | app/context/FavoritesContext.tsx:94-100 | Distinct ids stay distinct after update. |
| Favorites.ApplyKeepsUnique | app/context/FavoritesContext.tsx:71-100 | Every store call keeps ids distinct. |
| Favorites.CityIdParts | app/context/FavoritesContext.tsx:104 | The derived id is lower(name) + "_" + lower(country), and it is lower-case. |
| Favorites.IsFavoriteIgnoresCase | app/context/FavoritesContext.tsx:103-106 | isFavorite gives the same answer for any two spellings of the name and country that differ only in case. |
| Favorites.IsFavorite | app/context/FavoritesContext.tsx:103-106 | isFavorite holds exactly when the derived id is among the stored ids, each lower-cased. So it holds whenever the derived id is stored, and, when every stored id is lower-case, exactly then. |
| Favorites.StoredIdIsFavorite | app/context/FavoritesContext.tsx:103-106 | An entry stored under exactly the derived id makes the city a favorite. |
| Favorites.IsFavoriteIsMembership | app/context/FavoritesContext.tsx:103-106 | When all stored ids are lower-case, isFavorite holds exactly when the derived id is stored. |
| FavoritesProvider.Mount | app/context/FavoritesContext.tsx:32-33 | The provider starts with an empty list while loading, and the durable record is untouched. |
| FavoritesProvider.SaveEffect | app/context/FavoritesContext.tsx:55-68 | The effect writes nothing while loading. After loading, a successful write stores the whole current list, and a failed write leaves the record stale. |
| FavoritesProvider.FinishLoad | app/context/FavoritesContext.tsx:36-52 | Loading ends whatever the read gave. The list is replaced only by a stored value and is kept after a failed or empty read. On the first load a successful write then stores the list. |
| FavoritesProvider.Step | app/context/FavoritesContext.tsx:55-100 | A store call changes the list as the store function says and never writes while loading. A call that produces a new array re-saves the list. A duplicate add returns the same array and changes nothing. A failed write only logs, so the durable record stays as it was. |
| FavoritesProvider.StepKeepsSynced | app/context/FavoritesContext.tsx:55-68 | After loading, with successful writes, the durable record keeps equal to the list. |
| FavoritesProvider.StepKeepsValid | app/context/FavoritesContext.tsx:71-100 | Store calls keep ids unique in memory and on disk. |
| FavoritesProvider.LoadKeepsValid | app/context/FavoritesContext.tsx:36-52 | Loading the record the provider itself wrote keeps ids unique. |
| FavoritesProvider.RestartRestores | app/context/FavoritesContext.tsx:36-68 | Given the storage abstraction, in which a read returns exactly the list last written, a restart's load restores the list whose save succeeded. JSON encoding and decoding are not part of this round trip. |
| FavoritesProvider.Steps | app/context/FavoritesContext.tsx:55-68 | Any run of store calls while loading writes nothing to the durable record. |
| FavoritesProvider.StepsKeepSynced | app/context/FavoritesContext.tsx:55-68 | After loading, if every write succeeds, the durable record follows every store call. |
| FavoriteToggle.PressFavoriteButton | components/FavoriteButton.tsx:36-58 | A press removes exactly when the city is a favorite, and the id is lower(name)_lower(country). Otherwise it adds a record with that id and the given name, country, temperature, condition and timestamp. onPress runs once if given. |
| FavoriteToggle.PressAddsFavorite | components/FavoriteButton.tsx:45-52 | Pressing on a non-favorite appends the new record at the end and makes the city a favorite. |
| FavoriteToggle.PressRemovesFavorite | components/FavoriteButton.tsx:42-44 | Pressing on a favorite removes the derived id. If the stored ids are lower-case, the city is no longer a favorite. |
| FavoriteToggle.PressTwiceRestores | components/FavoriteButton.tsx:36-53 | Two presses starting from a non-favorite give back exactly the original list. |
| FavoriteToggle.AddSameCityTwice | components/FavoriteButton.tsx:40-52 | Adding records derived from two case variants of one city stores a single entry, the first. |
| FavoriteToggle.BerlinIds | components/FavoriteButton.tsx:40 | ("Berlin","DE"), ("Berlin","de") and ("berlin","DE") all derive the id "berlin_de". |
| FavoriteToggle.BerlinScenario | components/FavoriteButton.tsx:40-52 | Adding Berlin/de and then berlin/DE leaves one entry, "berlin_de". A button press for berlin/DE after the first add removes it, because it already counts as a favorite. |
| FavoriteToggle.MixedCaseIdIsNotRemoved | components/FavoriteButton.tsx:40-44 | For any list, any entry whose id is not the derived id but lowers to it makes the city a favorite, yet it survives a press. This is why the lower-case condition is needed. |
| FavoriteToggle.MixedCaseBerlin | components/FavoriteButton.tsx:40-44 | With the single entry "Berlin_DE", a press for Berlin/DE leaves the list exactly as it was. |
| FavoriteToggle.PressFavoriteManager | components/FavoriteManager.tsx:23-51 | Without weather data nothing happens. Otherwise the press equals a FavoriteButton press with the response's name, country and temperature and the first condition's description; onPress runs once if given. |
| ForecastList.Cap | components/ForecastList.tsx:59 | The front of the list: all of it when there are at most five entries, otherwise exactly the first five. |
| ForecastList.FirstsHasDay | components/ForecastList.tsx:51-53 | A day is selected exactly when one of its samples is outside today with an hour in [11,14]. A day with no such sample contributes nothing. |
| ForecastList.Reduce | components/ForecastList.tsx:41-56 | The reducer appends the sample exactly when it is outside today, its hour is in [11,14] and its day has no sample yet. Otherwise it returns the accumulator unchanged. |
| ForecastList.ReduceStep | components/ForecastList.tsx:41-56 | One reduce step extends the reference selection, which keeps the first qualifying sample per day in input order, by exactly the next sample's contribution. |
| ForecastList.FirstsWellFormed | components/ForecastList.tsx:46-53 | Every selected sample has an hour in [11,14] and is not from today, and no two share a day key. |
| ForecastList.FirstsAreFirstOfDay | components/ForecastList.tsx:51-53 | Every selected sample is the first qualifying sample of its day in the input. |
| ForecastList.DailyForecast | components/ForecastList.tsx:34-59 | No data or no list gives nothing. Otherwise the result is the first five per-day selections in first-qualified order, each in [11,14] and not today, one per day and first of its day. With fewer than five, every qualifying day is present. |
| WeatherStyles.WeatherBackground | components/CurrentWeather.tsx:93-101 | First match wins, with one iff per background. "01" is clear. "02"/"03"/"04" is clouds. "09"/"10" is rain, "11" thunder, "13" snow and "50" fog, each only when no earlier pattern occurs. There is no background exactly when none of the nine patterns occurs. |
| WeatherStyles.ConditionStyleOf | components/ForecastItem.tsx:41-48 | First match wins, with one iff per style. "01"/"02" is sunny. "03"/"04" is cloudy, "09"/"10" rainy, "11" stormy and "13" snowy, each only when no earlier pattern occurs. There is no style exactly when none of the eight patterns occurs, so "50" has none. |
| WeatherStyles.ConditionFromBackground | components/ForecastItem.tsx:41-48 | The forecast style follows from the current-weather background. The only differences are that a "02" code counts as sunny rather than clouds and fog has no forecast style. |
| WeatherStyles.ClearSkyCodes | components/CurrentWeather.tsx:94 | "01d" and "01n" are clear, and "01d" is sunny on a forecast card. |
| WeatherStyles.FewCloudsCode | components/ForecastItem.tsx:42 | "02d" is clouds on the current card but sunny on a forecast card. |
| WeatherStyles.BrokenCloudsCode | components/CurrentWeather.tsx:95 | "04n" is clouds on both cards. |
| WeatherStyles.RainCode | components/CurrentWeather.tsx:96 | "10d" is rain on both cards. |
| WeatherStyles.MistCode | components/CurrentWeather.tsx:99 | "50d" is fog on the current card and has no forecast style. |
| WeatherStyles.UnknownCode | components/CurrentWeather.tsx:100 | The example code "xyz" contains none of the patterns, so it has no style on either card. The general fact is the no-style iff of the two classifiers. |
| WeatherStyles.TimeOfDayOf | components/CurrentWeather.tsx:82-90 | Morning is [5,12), afternoon [12,18) and evening [18,21); every other hour is night. |
| WeatherStyles.CityTimeMs | components/CurrentWeather.tsx:57-62 | now + offsetMinutes*60000 + timezoneSeconds*1000 is the instant the device renders as the city's current wall-clock time. |
| WeatherStyles.HourOf | components/CurrentWeather.tsx:79 | The hour read from a wall-clock time lies in 0..23, and it is the hour of the day in which that time falls. |
| WeatherStyles.HourOfNextHour | components/CurrentWeather.tsx:79 | One hour later on the wall clock the hour advances by one, wrapping from 23 to 0. |
| WeatherStyles.CityTimeOfDayIgnoresDeviceZone | components/CurrentWeather.tsx:57-90 | The time-of-day bucket depends only on the city's clock, not on the device's time zone. |
| WeatherStyles.TempUnitLabel | components/CurrentWeather.tsx:53 | The temperature label is "°C" exactly for metric and "°F" exactly for imperial. |
| WeatherStyles.WindUnitLabel | components/CurrentWeather.tsx:54 | The wind label is "m/s" exactly for metric and "mph" exactly for imperial. |
| WeatherStyles.UnitLabels | components/CurrentWeather.tsx:53-54 | Metric is "°C" and "m/s"; imperial is "°F" and "mph". The temperature label tells the systems apart. |
| WeatherStyles.ShowsRangeAsWritten | components/ForecastItem.tsx:37-38 | The range as written shows only when the corrected condition also shows it. A bound of 0 always hides it. |
| WeatherStyles.ZeroBoundHidesRange | components/ForecastItem.tsx:67 | As written, min 0 and max 5 hide the range, which the corrected condition shows. |
| WeatherStyles.ShowsRangeAgreesAwayFromZero | components/ForecastItem.tsx:37-38 | The as-written and corrected conditions differ exactly when both bounds are present and differ, but one is 0. |
| WeatherApi.Receive | utils/weatherApi.ts:103-105 | Success exactly for an ok response, carrying its body. A non-ok response fails with the given "not found" Error, and a rejection is re-thrown unchanged. |
| WeatherApi.FetchWeatherByCity | utils/weatherApi.ts:93-111 | The URL is BASE + "/weather?q=" + city + "&appid=" + key + "&units=" + units, with the city unescaped. A non-ok response fails with "Weather data not found!". |
| WeatherApi.FetchForecastByCity | utils/weatherApi.ts:120-138 | The same URL shape with "/forecast". A non-ok response fails with "Forecast data not found!". |
| WeatherApi.DefaultUnitsAreMetric | utils/weatherApi.ts:93-96 | Omitting units requests what metric requests, and the URL then carries "&units=metric". |
| WeatherApi.WeatherUrlDeterminesCity | utils/weatherApi.ts:99-101 | For a fixed key and unit system, different cities give different request URLs. |
| WeatherApi.UnescapedCityIsAmbiguous | utils/weatherApi.ts:99-101 | Because the city is not escaped, for every a, k, x and units, the city a + "&appid=" + k with key x requests the same URL as the different city a with key k + "&appid=" + x. |
| WeatherApi.GetWeatherIconUrl | utils/weatherApi.ts:154-156 | The icon URL is the fixed prefix, then the code, then "@2x.png". |
| WeatherApi.IconUrlRoundTrip | utils/weatherApi.ts:154-156 | The code can be read back from its icon URL. |
| WeatherApi.IconUrlInjective | utils/weatherApi.ts:155 | Distinct codes give distinct icon URLs. |
| WeatherSession.Initial | utils/useWeather.tsx:101-108 | The hook starts in metric units with the given city, or "vancouver" when none is given. There is no data, no error, and it is not loading. |
| WeatherSession.ErrorMessage | utils/useWeather.tsx:125-126 | The message is the fixed prefix followed by the Error's message, or by "Unknown error occurred" for a non-Error value. |
| WeatherSession.Begin | utils/useWeather.tsx:112-113 | Starting a fetch sets loading and clears the error, and keeps the data, city and units. |
| WeatherSession.FetchWeatherData | utils/useWeather.tsx:111-132 | The weather URL is requested first, and the forecast only after the weather request succeeded. The session then settles: loading off, and either an error with no data or both data with no error. Success sets the city; failure leaves it unchanged. An error is shown exactly when a request throws, and its text is the message for the first thrown value. |
| WeatherSession.Fail | utils/useWeather.tsx:124-131 | The catch and finally blocks settle the session with the message for the thrown value. They keep the city and units. |
| WeatherSession.HandleSearch | utils/useWeather.tsx:135-139 | An empty term issues no request and changes nothing. Any other term runs the fetch and keeps the units. An error is shown exactly when a request throws. On success the city becomes the term and both replies' data is shown. On failure the city is kept and the message for the first thrown value is shown. |
| WeatherSession.ChangeUnits | utils/useWeather.tsx:142-151 | The units become the new unit. A change refetches the current city in the new units; setting the same unit changes nothing. The city never changes. A refetch shows an error exactly when a request throws, with the message for the first thrown value; otherwise it shows both replies' data. |
| WeatherSession.Mount | utils/useWeather.tsx:153-156 | On mount the given city, or "vancouver" when none is given, is fetched in metric units, and the session settles. |
| WeatherSession.NotFoundMessage | utils/useWeather.tsx:124-126 | A "not found" weather reply shows "Error fetching weather data: Weather data not found!" after a single request. |
| WeatherSession.ForecastNotFoundMessage | utils/useWeather.tsx:118-126 | An ok weather reply followed by a "not found" forecast reply shows "Error fetching weather data: Forecast data not found!" after two requests. |
| WeatherSession.RejectedErrorMessage | utils/useWeather.tsx:125-126 | A rejection carrying an Error shows the fixed prefix followed by that Error's message. |
| WeatherSession.NonErrorMessage | utils/useWeather.tsx:125 | A rejection with a non-Error value shows "Error fetching weather data: Unknown error occurred". |
| WeatherSession.ErrorMessageInjective | utils/useWeather.tsx:126 | Distinct Error messages give distinct displayed messages. |
| WeatherSession.ChangeUnitsAndBack | utils/useWeather.tsx:142-151 | With ok replies, switching to the other unit system and back shows the same city in the original units. The way back requests it in those units. |
| WeatherSession.SuccessfulSearchSetsCity | utils/useWeather.tsx:117-123 | A non-empty search with both replies ok displays the searched city, with no error, after two requests. |
| SearchBar.HandleSubmit | components/SearchBar.tsx:19-25 | No search fires exactly when the term is all whitespace, and then the field is unchanged. Otherwise the search is the term with surrounding whitespace cut: non-empty, with no whitespace at either end. The field is then cleared. |
| Text.Trim | components/SearchBar.tsx:21 | The trimmed term is a contiguous slice of the input. Everything cut from either end is ECMAScript whitespace, and the result has none at its ends. It is empty exactly when the input is all whitespace. |
| SearchBar.SubmitAlwaysFetches | components/SearchBar.tsx:19-25 | A submitted search is never empty, so handleSearch always issues a request for it. |
| SearchBar.BlankSubmitIsNoop | components/SearchBar.tsx:21 | Submitting whitespace searches nothing and leaves the field as it was, however often it is repeated. |
| UnitToggle.HandleToggle | utils/unitToggle.tsx:35-38 | The toggle emits the other unit, never the current one. |
| UnitToggle.Requested | utils/unitToggle.tsx:49-63 | The °C button requests metric and the °F button requests imperial, whatever the current unit. |
| UnitToggle.IsActive | utils/unitToggle.tsx:47-61 | A button is active exactly when it shows the current unit. |
| UnitToggle.ToggleInvolution | utils/unitToggle.tsx:36 | Toggling twice gives back the original unit. |
| UnitToggle.ExactlyOneActive | utils/unitToggle.tsx:45-66 | Exactly one button is active, the one for the current unit. °C always requests metric and °F always requests imperial. |

## Left out

- Network and storage I/O (`fetch`, `response.json()`, `AsyncStorage`, JSON encoding and decoding) are inputs. A reply is an ok flag with a decoded body, or a rejection. A storage read is a failure, nothing stored, or a decoded list. A write is a success flag.
- Concurrency and React scheduling are not modelled. Overlapping searches can race on state, a store call can arrive before the load finishes, and effects run with React's own timing. Each transition is applied atomically, in order.
- WeatherSession.Mount models one fetch of the default city. On mount the source runs two identical fetches, one from the units effect and one from the mount effect. Their interleaving is a race and is left out.
- FavoritesProvider.Step: a remove or update always counts as a new array, and so a save, as `filter` and `map` do in the source. The React re-render machinery itself is not modelled.
- Date and locale work (`toISOString`, `toLocaleDateString`, `getDate`, `getHours`) is abstracted. Each forecast sample carries its day key, day of month and hour. The mix of UTC day keys with device-local hours is not modelled.
- Floating point (`Math.round`, visibility, wind speed) is not modelled. Temperatures are pre-rounded integers, and the display of `WeatherDetails` is out.
- WeatherStyles.CityTimeMs: uses the device's current UTC offset and does not model a daylight-saving change between now and the shifted instant.
- The bulk refresh of favorites on the favorites screen (`app/(tabs)/favorites.tsx`) is not part of this model, since it is a screen rather than the store. Its per-city updates are ordinary calls of `Favorites.Update`.
- Rendering, styles, icons, animation, navigation and configuration are left out. This covers `Header`, `Footer`, `FadeIn`, `LoadingSpinner`, `ErrorAlert`, `WeatherDetails`, `WeatherIcon`, `components/UnitToggle.tsx` (a render-only copy of the unit switch), the layout and the app config. The API key is an input.
- FavoriteToggle.PressFavoriteManager requires a non-empty `weather` array when data is present. The source reads `weather[0].description` while rendering, so with an empty array it throws before any button exists and no press can happen.
- The `useFavorites` guard that throws outside a provider is wiring and is not modelled.

## Findings

| source | as written | input that shows it | evidently intended | confidence | as-written member | corrected member |
|---|---|---|---|---|---|---|
| components/ForecastItem.tsx:37-38 | `temp_min ? … : null` and `minTemp && maxTemp && …` test truthiness, so a bound of 0 degrees counts as missing | temp_min = 0, temp_max = 5: the min/max range is not shown | show the range whenever both bounds are present and differ | medium, not executed | WeatherStyles.ZeroBoundHidesRange | WeatherStyles.ShowsRangeAgreesAwayFromZero |

=== FILE: favorite_toggle.dfy ===
/**
 * The two components that flip a city's favorite status: `FavoriteButton`
 * (heart icon next to a location) and `FavoriteManager` (the larger button
 * fed a whole weather response). Each press yields the store call it issues
 * and how many times the optional `onPress` callback runs; the clock reading
 * `Date.now()` is an input.
 */
module FavoriteToggle {
  import opened Options
  import opened Text
  import opened Favorites
  import opened WeatherApi

  /** The store call a press issues and the number of `onPress` invocations. */
  datatype PressEffect = PressEffect(call: Mutation, onPressCalls: nat)

  /** The record a press on a non-favorite adds. */
  function NewFavorite(cityName: string, countryCode: string, temperature: Option<int>, condition: Option<string>, now: int): FavoriteCity
  {
    FavoriteCity(CityId(cityName, countryCode), cityName, countryCode, temperature, condition, Some(now))
  }

  /** `FavoriteButton.handlePress`: remove the derived id if the city is a favorite, otherwise add it. */
  function PressFavoriteButton(
    favs: seq<FavoriteCity>, cityName: string, countryCode: string,
    temperature: Option<int>, condition: Option<string>, now: int, hasOnPress: bool): (r: PressEffect)
    ensures IsFavorite(favs, cityName, countryCode) <==> r.call.RemoveCity?
    ensures !IsFavorite(favs, cityName, countryCode) ==> r.call.AddCity?
    ensures r.call.RemoveCity? ==> r.call.id == Lower(cityName) + "_" + Lower(countryCode)
    ensures r.call.AddCity? ==>
              && r.call.city.id == Lower(cityName) + "_" + Lower(countryCode)
              && r.call.city.name == cityName && r.call.city.country == countryCode
              && r.call.city.lastTemp == temperature && r.call.city.lastCondition == condition
              && r.call.city.lastUpdated == Some(now)
    ensures r.onPressCalls == if hasOnPress then 1 else 0
  {
    CityIdParts(cityName, countryCode);
    var id := CityId(cityName, countryCode);
    var call := if IsFavorite(favs, cityName, countryCode) then RemoveCity(id)
                else AddCity(NewFavorite(cityName, countryCode, temperature, condition, now));
    PressEffect(call, if hasOnPress then 1 else 0)
  }

  /**
   * `FavoriteManager.handleToggleFavorite`. Without weather data nothing is
   * rendered, so there is nothing to press (`None`). The temperature and the
   * first condition's description are taken from the response, which must
   * carry at least one condition.
   */
  function PressFavoriteManager(
    favs: seq<FavoriteCity>, weatherData: Option<WeatherReport>, now: int, hasOnPress: bool): (r: Option<PressEffect>)
    requires weatherData.Some? ==> |weatherData.value.conditions| > 0
    ensures weatherData.None? <==> r.None?
    ensures r.Some? ==> r.value.onPressCalls == if hasOnPress then 1 else 0
    ensures r.Some? ==>
              var w := weatherData.value;
              r.value == PressFavoriteButton(favs, w.name, w.country, Some(w.temp), Some(w.conditions[0].description), now, hasOnPress)
  {
    match weatherData
    case None => None
    case Some(w) =>
      var name := w.name;
      var country := w.country;
      var cityId := Lower(name + "_" + country);
      var call := if IsFavorite(favs, name, country) then RemoveCity(cityId)
                  else AddCity(FavoriteCity(cityId, name, country, Some(w.temp), Some(w.conditions[0].description), Some(now)));
      Some(PressEffect(call, if hasOnPress then 1 else 0))
  }

  /** Pressing on a non-favorite appends the new record and makes the city a favorite. */
  lemma PressAddsFavorite(
    favs: seq<FavoriteCity>, cityName: string, countryCode: string,
    temperature: Option<int>, condition: Option<string>, now: int, hasOnPress: bool)
    requires !IsFavorite(favs, cityName, countryCode)
    ensures var after := Apply(favs, PressFavoriteButton(favs, cityName, countryCode, temperature, condition, now, hasOnPress).call);
            && after == favs + [NewFavorite(cityName, countryCode, temperature, condition, now)]
            && IsFavorite(after, cityName, countryCode)
  {
    var id := CityId(cityName, countryCode);
    if HasId(favs, id) {
      StoredIdIsFavorite(favs, cityName, countryCode);
    }
    var after := favs + [NewFavorite(cityName, countryCode, temperature, condition, now)];
    assert after[|favs|].id == id;
    StoredIdIsFavorite(after, cityName, countryCode);
  }

  /** Pressing on a favorite whose stored ids are all lower-case removes it. */
  lemma PressRemovesFavorite(
    favs: seq<FavoriteCity>, cityName: string, countryCode: string,
    temperature: Option<int>, condition: Option<string>, now: int, hasOnPress: bool)
    requires IsFavorite(favs, cityName, countryCode)
    requires AllIdsLower(favs)
    ensures var after := Apply(favs, PressFavoriteButton(favs, cityName, countryCode, temperature, condition, now, hasOnPress).call);
            && after == Remove(favs, CityId(cityName, countryCode))
            && !IsFavorite(after, cityName, countryCode)
  {
    var after := Remove(favs, CityId(cityName, countryCode));
    assert AllIdsLower(after) by {
      forall i | 0 <= i < |after| ensures IsLower(after[i].id) {
        assert after[i] in favs;
      }
    }
    IsFavoriteIsMembership(after, cityName, countryCode);
  }

  /** Two presses starting from a non-favorite leave the list exactly as it was. */
  lemma PressTwiceRestores(
    favs: seq<FavoriteCity>, cityName: string, countryCode: string,
    temperature: Option<int>, condition: Option<string>, now1: int, now2: int)
    requires !IsFavorite(favs, cityName, countryCode)
    ensures var once := Apply(favs, PressFavoriteButton(favs, cityName, countryCode, temperature, condition, now1, false).call);
            Apply(once, PressFavoriteButton(once, cityName, countryCode, temperature, condition, now2, false).call) == favs
  {
    PressAddsFavorite(favs, cityName, countryCode, temperature, condition, now1, false);
    var city := NewFavorite(cityName, countryCode, temperature, condition, now1);
    if HasId(favs, city.id) {
      StoredIdIsFavorite(favs, cityName, countryCode);
    }
    RemoveUndoesAdd(favs, city);
  }

  /**
   * Two records derived from spellings of the same city that differ only in
   * case share an id, so adding the second after the first changes nothing.
   */
  lemma AddSameCityTwice(
    favs: seq<FavoriteCity>, n1: string, c1: string, n2: string, c2: string,
    t1: Option<int>, t2: Option<int>, d1: Option<string>, d2: Option<string>, now1: int, now2: int)
    requires Lower(n1) == Lower(n2) && Lower(c1) == Lower(c2)
    ensures var once := Add(favs, NewFavorite(n1, c1, t1, d1, now1));
            Add(once, NewFavorite(n2, c2, t2, d2, now2)) == once
  {
    CityIdParts(n1, c1);
    CityIdParts(n2, c2);
  }

  lemma BerlinIds()
    ensures CityId("Berlin", "DE") == "berlin_de"
    ensures CityId("Berlin", "de") == "berlin_de"
    ensures CityId("berlin", "DE") == "berlin_de"
    ensures Lower("Berlin_DE") == "berlin_de"
  {
    LowerIs("Berlin", "berlin");
    LowerIs("berlin", "berlin");
    LowerIs("DE", "de");
    LowerIs("de", "de");
    CityIdParts("Berlin", "DE");
    CityIdParts("Berlin", "de");
    CityIdParts("berlin", "DE");
    LowerIs("Berlin_DE", "berlin_de");
  }

  /**
   * A stored id that is not lower-case but lowers to the derived id makes the
   * city a favorite, yet pressing removes the lower-case id and so leaves that
   * entry in place.
   */
  lemma MixedCaseIdIsNotRemoved(
    favs: seq<FavoriteCity>, k: int, cityName: string, countryCode: string,
    temperature: Option<int>, condition: Option<string>, now: int, hasOnPress: bool)
    requires 0 <= k < |favs|
    requires Lower(favs[k].id) == CityId(cityName, countryCode) && favs[k].id != CityId(cityName, countryCode)
    ensures IsFavorite(favs, cityName, countryCode)
    ensures favs[k] in Apply(favs, PressFavoriteButton(favs, cityName, countryCode, temperature, condition, now, hasOnPress).call)
  {
    assert IsFavorite(favs, cityName, countryCode);
    assert favs[k] in favs;
  }

  /** With the single entry "Berlin_DE", a press for "Berlin"/"DE" leaves the list as it was. */
  lemma MixedCaseBerlin()
    ensures var favs := [FavoriteCity("Berlin_DE", "Berlin", "DE", None, None, None)];
            && IsFavorite(favs, "Berlin", "DE")
            && Apply(favs, PressFavoriteButton(favs, "Berlin", "DE", None, None, 0, false).call) == favs
  {
    var favs := [FavoriteCity("Berlin_DE", "Berlin", "DE", None, None, None)];
    var id := CityId("Berlin", "DE");
    BerlinIds();
    assert favs[0].id != id;
    MixedCaseIdIsNotRemoved(favs, 0, "Berlin", "DE", None, None, 0, false);
    assert PressFavoriteButton(favs, "Berlin", "DE", None, None, 0, false).call == RemoveCity(id);
    assert !HasId(favs, id);
    RemoveAbsentIsNoop(favs, id);
  }

  /**
   * Adding "Berlin"/"de" and then "berlin"/"DE" stores one entry, `berlin_de`,
   * keeping the first record; a button press for "berlin"/"DE" after the first
   * add removes it instead, since the city already counts as a favorite.
   */
  lemma BerlinScenario(now1: int, now2: int)
    ensures var first := NewFavorite("Berlin", "de", None, None, now1);
            var second := NewFavorite("berlin", "DE", None, None, now2);
            var favs := Add(Add([], first), second);
            && favs == [first]
            && favs[0].id == "berlin_de"
            && Apply([first], PressFavoriteButton([first], "berlin", "DE", None, None, now2, false).call) == []
  {
    BerlinIds();
    var first := NewFavorite("Berlin", "de", None, None, now1);
    var second := NewFavorite("berlin", "DE", None, None, now2);
    assert Add([], first) == [first];
    assert [first][0].id == second.id;
    assert Add([first], second) == [first];
    assert HasId([first], CityId("berlin", "DE"));
    StoredIdIsFavorite([first], "berlin", "DE");
    assert PressFavoriteButton([first], "berlin", "DE", None, None, now2, false).call == RemoveCity("berlin_de");
    assert Remove([first], "berlin_de") == [];
  }
}

=== FILE: favorites.dfy ===
/**
 * The favorites store of `FavoritesContext`: an ordered sequence of
 * `FavoriteCity` records identified by `id`, with the four operations the
 * context exposes. Each operation is the pure update function the provider
 * hands to `setFavorites`.
 */
module Favorites {
  import opened Options
  import opened Text

  /** A stored favorite. Optional fields that are absent and fields holding `undefined` are both `None`. */
  datatype FavoriteCity = FavoriteCity(
    id: string,
    name: string,
    country: string,
    lastTemp: Option<int>,
    lastCondition: Option<string>,
    lastUpdated: Option<int>)

  /**
   * An optional property of an object literal that is spread over a stored
   * record: left out of the literal (`Omitted`), or written, possibly as
   * `undefined` (`Given(None)`).
   */
  datatype Slot<T> = Omitted | Given(value: Option<T>)

  /** The argument of `updateFavorite`: the required keys plus the three optional ones. */
  datatype CityPatch = CityPatch(
    id: string,
    name: string,
    country: string,
    lastTemp: Slot<int>,
    lastCondition: Slot<string>,
    lastUpdated: Slot<int>)

  /** A call into the store, as the components issue them. */
  datatype Mutation = AddCity(city: FavoriteCity) | RemoveCity(id: string) | UpdateCity(patch: CityPatch)

  /** The identity of a city: `${name}_${country}` lower-cased. */
  function CityId(name: string, country: string): string
  {
    Lower(name + "_" + country)
  }

  predicate HasId(favs: seq<FavoriteCity>, id: string)
  {
    exists i :: 0 <= i < |favs| && favs[i].id == id
  }

  predicate UniqueIds(favs: seq<FavoriteCity>)
  {
    forall i, j :: 0 <= i < j < |favs| ==> favs[i].id != favs[j].id
  }

  predicate AllIdsLower(favs: seq<FavoriteCity>)
  {
    forall i :: 0 <= i < |favs| ==> IsLower(favs[i].id)
  }

  /** Number of entries carrying `id`. */
  function CountId(favs: seq<FavoriteCity>, id: string): nat
  {
    if favs == [] then 0 else CountId(favs[..|favs| - 1], id) + (if favs[|favs| - 1].id == id then 1 else 0)
  }

  /** `a` can be obtained from `b` by deleting entries, keeping the order of the rest. */
  predicate IsSubsequence(a: seq<FavoriteCity>, b: seq<FavoriteCity>)
  {
    if a == [] then true
    else if b == [] then false
    else if a[|a| - 1] == b[|b| - 1] then IsSubsequence(a[..|a| - 1], b[..|b| - 1])
    else IsSubsequence(a, b[..|b| - 1])
  }

  /** `addFavorite`: appends the city unless an entry already has its id (first write wins). */
  function Add(favs: seq<FavoriteCity>, city: FavoriteCity): (r: seq<FavoriteCity>)
    ensures HasId(r, city.id)
    ensures |favs| <= |r| <= |favs| + 1 && r[..|favs|] == favs
    ensures HasId(favs, city.id) <==> r == favs
    ensures !HasId(favs, city.id) ==> r[|favs|] == city
  {
    if HasId(favs, city.id) then favs
    else
      var r := favs + [city];
      assert r[|favs|].id == city.id;
      r
  }

  /** `removeFavorite`: keeps exactly the entries whose id differs, in their original order. */
  function Remove(favs: seq<FavoriteCity>, id: string): (r: seq<FavoriteCity>)
    ensures !HasId(r, id)
    ensures forall c :: c in r <==> c in favs && c.id != id
    ensures IsSubsequence(r, favs)
    ensures |r| == |favs| - CountId(favs, id)
  {
    if favs == [] then []
    else
      var init := Remove(favs[..|favs| - 1], id);
      var last := favs[|favs| - 1];
      assert favs == favs[..|favs| - 1] + [last];
      if last.id == id then init else init + [last]
  }

  /** A property of a spread object literal overrides the stored value unless it was left out. */
  function Overlay<T>(stored: Option<T>, s: Slot<T>): Option<T>
  {
    match s
    case Omitted => stored
    case Given(v) => v
  }

  /** `{ ...city, ...patch }`. */
  function Merge(city: FavoriteCity, patch: CityPatch): (r: FavoriteCity)
    ensures r.id == patch.id && r.name == patch.name && r.country == patch.country
    ensures patch.lastTemp.Omitted? ==> r.lastTemp == city.lastTemp
    ensures patch.lastTemp.Given? ==> r.lastTemp == patch.lastTemp.value
    ensures patch.lastCondition.Omitted? ==> r.lastCondition == city.lastCondition
    ensures patch.lastCondition.Given? ==> r.lastCondition == patch.lastCondition.value
    ensures patch.lastUpdated.Omitted? ==> r.lastUpdated == city.lastUpdated
    ensures patch.lastUpdated.Given? ==> r.lastUpdated == patch.lastUpdated.value
  {
    FavoriteCity(
      patch.id, patch.name, patch.country,
      Overlay(city.lastTemp, patch.lastTemp),
      Overlay(city.lastCondition, patch.lastCondition),
      Overlay(city.lastUpdated, patch.lastUpdated))
  }

  /** `updateFavorite`: merges the patch into every entry with its id; never inserts. */
  function Update(favs: seq<FavoriteCity>, patch: CityPatch): (r: seq<FavoriteCity>)
    ensures |r| == |favs|
    ensures forall i :: 0 <= i < |favs| ==> r[i].id == favs[i].id
    ensures forall i :: 0 <= i < |favs| && favs[i].id != patch.id ==> r[i] == favs[i]
    ensures forall i :: 0 <= i < |favs| && favs[i].id == patch.id ==> r[i] == Merge(favs[i], patch)
    ensures !HasId(favs, patch.id) ==> r == favs
  {
    seq(|favs|, i requires 0 <= i < |favs| => if favs[i].id == patch.id then Merge(favs[i], patch) else favs[i])
  }

  function Apply(favs: seq<FavoriteCity>, m: Mutation): seq<FavoriteCity>
  {
    match m
    case AddCity(city) => Add(favs, city)
    case RemoveCity(id) => Remove(favs, id)
    case UpdateCity(patch) => Update(favs, patch)
  }

  /** The stored ids, each lower-cased, in store order. */
  function LoweredIds(favs: seq<FavoriteCity>): (r: seq<string>)
    ensures |r| == |favs|
    ensures forall i :: 0 <= i < |favs| ==> r[i] == Lower(favs[i].id)
  {
    seq(|favs|, i requires 0 <= i < |favs| => Lower(favs[i].id))
  }

  /** `isFavorite`: some stored id, lower-cased, equals the derived id of the name and country. */
  function IsFavorite(favs: seq<FavoriteCity>, cityName: string, countryCode: string): (r: bool)
    ensures r <==> CityId(cityName, countryCode) in LoweredIds(favs)
    ensures HasId(favs, CityId(cityName, countryCode)) ==> r
    ensures AllIdsLower(favs) ==> (r <==> HasId(favs, CityId(cityName, countryCode)))
  {
    exists i :: 0 <= i < |favs| && Lower(favs[i].id) == CityId(cityName, countryCode)
  }

  /** The derived id is the lower-cased name and the lower-cased country joined by `_`. */
  lemma CityIdParts(name: string, country: string)
    ensures CityId(name, country) == Lower(name) + "_" + Lower(country)
    ensures IsLower(CityId(name, country))
  {
    var underscore := "_";
    assert Lower(underscore) == underscore by {
      assert underscore[1..] == [];
    }
    LowerAppend(name + underscore, country);
    LowerAppend(name, underscore);
    LowerIsLower(name + underscore + country);
  }

  lemma {:induction false} AddIdempotent(favs: seq<FavoriteCity>, city: FavoriteCity)
    ensures Add(Add(favs, city), city) == Add(favs, city)
  {
    assert HasId(Add(favs, city), city.id);
  }

  lemma AddKeepsUnique(favs: seq<FavoriteCity>, city: FavoriteCity)
    requires UniqueIds(favs)
    ensures UniqueIds(Add(favs, city))
  {
    if !HasId(favs, city.id) {
      var r := Add(favs, city);
      forall i, j | 0 <= i < j < |r| ensures r[i].id != r[j].id {
        if j == |favs| {
          assert r[i] == favs[i];
        } else {
          assert r[i] == favs[i] && r[j] == favs[j];
        }
      }
    }
  }

  lemma {:induction false} RemoveKeepsUnique(favs: seq<FavoriteCity>, id: string)
    requires UniqueIds(favs)
    ensures UniqueIds(Remove(favs, id))
  {
    if favs != [] {
      var init := favs[..|favs| - 1];
      var last := favs[|favs| - 1];
      RemoveKeepsUnique(init, id);
      var ri := Remove(init, id);
      if last.id != id {
        var r := ri + [last];
        assert r == Remove(favs, id);
        forall i | 0 <= i < |ri| ensures ri[i].id != last.id {
          assert ri[i] in init;
          var k :| 0 <= k < |init| && init[k] == ri[i];
          assert favs[k] == init[k];
        }
      }
    }
  }

  lemma UpdateKeepsUnique(favs: seq<FavoriteCity>, patch: CityPatch)
    requires UniqueIds(favs)
    ensures UniqueIds(Update(favs, patch))
  {
  }

  lemma ApplyKeepsUnique(favs: seq<FavoriteCity>, m: Mutation)
    requires UniqueIds(favs)
    ensures UniqueIds(Apply(favs, m))
  {
    match m
    case AddCity(city) => AddKeepsUnique(favs, city);
    case RemoveCity(id) => RemoveKeepsUnique(favs, id);
    case UpdateCity(patch) => UpdateKeepsUnique(favs, patch);
  }

  /** Removing an id that is not stored changes nothing. */
  lemma {:induction false} RemoveAbsentIsNoop(favs: seq<FavoriteCity>, id: string)
    requires !HasId(favs, id)
    ensures Remove(favs, id) == favs
  {
    if favs != [] {
      var init := favs[..|favs| - 1];
      RemoveAbsentIsNoop(init, id);
      assert favs == init + [favs[|favs| - 1]];
    }
  }

  /** When the id is absent, removing the id of the entry just appended undoes the append. */
  lemma RemoveUndoesAdd(favs: seq<FavoriteCity>, city: FavoriteCity)
    requires !HasId(favs, city.id)
    ensures Remove(Add(favs, city), city.id) == favs
  {
    var r := favs + [city];
    assert r[..|r| - 1] == favs;
    RemoveAbsentIsNoop(favs, city.id);
  }

  /** A patch that writes all three optional fields replaces a matching record outright. */
  lemma FullPatchReplaces(favs: seq<FavoriteCity>, city: FavoriteCity)
    ensures var patch := CityPatch(city.id, city.name, city.country,
                                   Given(city.lastTemp), Given(city.lastCondition), Given(city.lastUpdated));
            forall i :: 0 <= i < |favs| && favs[i].id == city.id ==> Update(favs, patch)[i] == city
  {
  }

  /** `isFavorite` only depends on the lower-cased name and country. */
  lemma IsFavoriteIgnoresCase(favs: seq<FavoriteCity>, n1: string, c1: string, n2: string, c2: string)
    requires Lower(n1) == Lower(n2) && Lower(c1) == Lower(c2)
    ensures IsFavorite(favs, n1, c1) <==> IsFavorite(favs, n2, c2)
  {
    CityIdParts(n1, c1);
    CityIdParts(n2, c2);
  }

  /** An entry stored under exactly the derived id makes the city a favorite. */
  lemma StoredIdIsFavorite(favs: seq<FavoriteCity>, name: string, country: string)
    requires HasId(favs, CityId(name, country))
    ensures IsFavorite(favs, name, country)
  {
    var i :| 0 <= i < |favs| && favs[i].id == CityId(name, country);
    CityIdParts(name, country);
    LowerIsLower(CityId(name, country));
  }

  /** When every stored id is lower-case, `isFavorite` is plain membership of the derived id. */
  lemma IsFavoriteIsMembership(favs: seq<FavoriteCity>, name: string, country: string)
    requires AllIdsLower(favs)
    ensures IsFavorite(favs, name, country) <==> HasId(favs, CityId(name, country))
  {
    if IsFavorite(favs, name, country) {
      var i :| 0 <= i < |favs| && Lower(favs[i].id) == CityId(name, country);
      LowerIsLower(favs[i].id);
    }
    if HasId(favs, CityId(name, country)) {
      StoredIdIsFavorite(favs, name, country);
    }
  }
}

=== FILE: favorites_provider.dfy ===
/**
 * The load/save lifecycle of `FavoritesProvider`. The durable record under the
 * fixed storage key `weather_favorites` is the `disk` slot; reading it and writing it are inputs
 * (what the read produced, whether the write succeeded). The save effect runs
 * after a render in which `favorites` or `loading` changed, and writes only once
 * loading has finished.
 */
module FavoritesProvider {
  import opened Options
  import opened Favorites

  datatype Provider = Provider(favorites: seq<FavoriteCity>, loading: bool, disk: Option<seq<FavoriteCity>>)

  /** What reading the storage key produced: a failure (read or parse), nothing stored, or a decoded list. */
  datatype StorageRead = ReadFailed | NothingStored | Stored(value: seq<FavoriteCity>)

  /** The state right after mount: empty list, still loading, the durable record as it was. */
  function Mount(disk: Option<seq<FavoriteCity>>): (p: Provider)
    ensures p.favorites == [] && p.loading && p.disk == disk
  {
    Provider([], true, disk)
  }

  /** The read a fresh start would see for a durable slot. */
  function ReadOf(disk: Option<seq<FavoriteCity>>): StorageRead
  {
    match disk
    case None => NothingStored
    case Some(v) => Stored(v)
  }

  /** The save effect: overwrite the durable record with the whole list, unless loading or the write fails. */
  function SaveEffect(p: Provider, writeOk: bool): (r: Provider)
    ensures r.favorites == p.favorites && r.loading == p.loading
    ensures p.loading ==> r.disk == p.disk
    ensures !p.loading && writeOk ==> r.disk == Some(p.favorites)
    ensures !writeOk ==> r.disk == p.disk
  {
    if !p.loading && writeOk then p.(disk := Some(p.favorites)) else p
  }

  /** Whether applying the mutation hands React a new array (and so re-runs the save effect). */
  predicate ProducesNewList(favs: seq<FavoriteCity>, m: Mutation)
  {
    match m
    case AddCity(city) => !HasId(favs, city.id)
    case RemoveCity(_) => true
    case UpdateCity(_) => true
  }

  /** The end of the mount-time load: replace the list only if a value was stored; loading ends in every case. */
  function FinishLoad(p: Provider, read: StorageRead, writeOk: bool): (r: Provider)
    ensures !r.loading
    ensures read.Stored? ==> r.favorites == read.value
    ensures !read.Stored? ==> r.favorites == p.favorites
    ensures writeOk && (p.loading || read.Stored?) ==> r.disk == Some(r.favorites)
    ensures !writeOk ==> r.disk == p.disk
  {
    var favs := if read.Stored? then read.value else p.favorites;
    var next := p.(favorites := favs, loading := false);
    if p.loading || read.Stored? then SaveEffect(next, writeOk) else next
  }

  /** A store call followed by the save effect it triggers, if any. */
  function Step(p: Provider, m: Mutation, writeOk: bool): (r: Provider)
    ensures r.favorites == Apply(p.favorites, m) && r.loading == p.loading
    ensures p.loading ==> r.disk == p.disk
    ensures !p.loading && writeOk && ProducesNewList(p.favorites, m) ==> r.disk == Some(r.favorites)
    ensures !ProducesNewList(p.favorites, m) ==> r == p
    ensures !writeOk ==> r.disk == p.disk
  {
    var next := p.(favorites := Apply(p.favorites, m));
    if ProducesNewList(p.favorites, m) then SaveEffect(next, writeOk) else next
  }

  /** The durable record holds the current list. */
  predicate Synced(p: Provider)
  {
    p.disk == Some(p.favorites)
  }

  /** Ids are unique in memory and in the durable record. */
  predicate Valid(p: Provider)
  {
    UniqueIds(p.favorites) && (p.disk.Some? ==> UniqueIds(p.disk.value))
  }

  /** Once loaded and synced, successful writes keep the durable record equal to the list. */
  lemma StepKeepsSynced(p: Provider, m: Mutation)
    requires !p.loading && Synced(p)
    ensures Synced(Step(p, m, true))
  {
    if !ProducesNewList(p.favorites, m) {
      match m
      case AddCity(city) =>
        assert Add(p.favorites, city) == p.favorites;
    }
  }

  lemma StepKeepsValid(p: Provider, m: Mutation, writeOk: bool)
    requires Valid(p)
    ensures Valid(Step(p, m, writeOk))
  {
    ApplyKeepsUnique(p.favorites, m);
  }

  /** Loading the record the provider itself wrote keeps ids unique. */
  lemma LoadKeepsValid(p: Provider, writeOk: bool)
    requires Valid(p)
    ensures Valid(FinishLoad(p, ReadOf(p.disk), writeOk))
  {
  }

  /**
   * Persistence round trip: after a restart, loading the durable record of a
   * synced provider restores exactly its list.
   */
  lemma RestartRestores(p: Provider, writeOk: bool)
    requires Synced(p)
    ensures FinishLoad(Mount(p.disk), ReadOf(p.disk), writeOk).favorites == p.favorites
  {
  }

  /** A sequence of store calls, each with the outcome of the write it may trigger. */
  function Steps(p: Provider, ms: seq<Mutation>, writesOk: seq<bool>): (r: Provider)
    requires |writesOk| == |ms|
    ensures r.favorites == ApplyAll(p.favorites, ms) && r.loading == p.loading
    ensures p.loading ==> r.disk == p.disk
    decreases |ms|
  {
    if ms == [] then p else Steps(Step(p, ms[0], writesOk[0]), ms[1..], writesOk[1..])
  }

  function ApplyAll(favs: seq<FavoriteCity>, ms: seq<Mutation>): seq<FavoriteCity>
    decreases |ms|
  {
    if ms == [] then favs else ApplyAll(Apply(favs, ms[0]), ms[1..])
  }

  /** After loading, if every write succeeds, the durable record follows every store call. */
  lemma {:induction false} StepsKeepSynced(p: Provider, ms: seq<Mutation>, writesOk: seq<bool>)
    requires |writesOk| == |ms| && forall i :: 0 <= i < |writesOk| ==> writesOk[i]
    requires !p.loading && Synced(p)
    ensures Synced(Steps(p, ms, writesOk))
    decreases |ms|
  {
    if ms != [] {
      StepKeepsSynced(p, ms[0]);
      StepsKeepSynced(Step(p, ms[0], writesOk[0]), ms[1..], writesOk[1..]);
    }
  }
}

=== FILE: forecast_list.dfy ===
/**
 * The daily selection of `ForecastList`: a reduce over the 3-hourly samples
 * that skips today, keeps per calendar day the first sample whose local hour
 * is 11 to 14, and shows at most five days, in the order the days were first
 * kept. Date conversions are done beforehand (see `ForecastSample`).
 */
module ForecastList {
  import opened Options
  import opened WeatherApi

  const MAX_DAYS: nat := 5
  const NOON_FROM: int := 11
  const NOON_TO: int := 14

  /** A sample that may stand for its day: not today, and between 11:00 and 14:59 local time. */
  predicate Qualifies(x: ForecastSample, today: int)
  {
    x.dayOfMonth != today && NOON_FROM <= x.hour <= NOON_TO
  }

  predicate HasDay(acc: seq<ForecastSample>, dayKey: string)
  {
    exists k :: 0 <= k < |acc| && acc[k].dayKey == dayKey
  }

  /**
   * The reducer: skip a sample of today; otherwise record it if its day has no
   * sample yet and its hour is 11 to 14. The accumulator lists the recorded
   * samples in insertion order, which is the order `Object.values` returns for
   * date-string keys.
   */
  function Reduce(acc: seq<ForecastSample>, item: ForecastSample, today: int): (r: seq<ForecastSample>)
    ensures Qualifies(item, today) && !HasDay(acc, item.dayKey) ==> r == acc + [item]
    ensures !(Qualifies(item, today) && !HasDay(acc, item.dayKey)) ==> r == acc
  {
    if item.dayOfMonth == today then acc
    else if !HasDay(acc, item.dayKey) && item.hour >= NOON_FROM && item.hour <= NOON_TO then acc + [item]
    else acc
  }

  /** Sample `i` qualifies and no earlier qualifying sample has its day. */
  predicate FirstOfDay(list: seq<ForecastSample>, today: int, i: int)
  {
    && 0 <= i < |list|
    && Qualifies(list[i], today)
    && forall j :: 0 <= j < i && Qualifies(list[j], today) ==> list[j].dayKey != list[i].dayKey
  }

  /** Reference selection: the samples among the first `n` that are first of their day, in input order. */
  function Firsts(list: seq<ForecastSample>, today: int, n: nat): seq<ForecastSample>
    requires n <= |list|
  {
    if n == 0 then []
    else Firsts(list, today, n - 1) + (if FirstOfDay(list, today, n - 1) then [list[n - 1]] else [])
  }

  /** The first `MAX_DAYS` entries (`slice(0, 5)`). */
  function Cap(s: seq<ForecastSample>): (r: seq<ForecastSample>)
    ensures |r| == if |s| <= MAX_DAYS then |s| else MAX_DAYS
    ensures r == s[..|r|]
    ensures |s| <= MAX_DAYS ==> r == s
  {
    if |s| <= MAX_DAYS then s else s[..MAX_DAYS]
  }

  /** A day is among the first `n` selections exactly when some sample of that day among the first `n` qualifies. */
  lemma {:induction false} FirstsHasDay(list: seq<ForecastSample>, today: int, n: nat, key: string)
    requires n <= |list|
    ensures HasDay(Firsts(list, today, n), key) <==> exists j :: 0 <= j < n && Qualifies(list[j], today) && list[j].dayKey == key
  {
    if n > 0 {
      FirstsHasDay(list, today, n - 1, key);
      var prev := Firsts(list, today, n - 1);
      var f := Firsts(list, today, n);
      if HasDay(prev, key) {
        var k :| 0 <= k < |prev| && prev[k].dayKey == key;
        assert f[k] == prev[k];
      }
      if HasDay(f, key) && !HasDay(prev, key) {
        var k :| 0 <= k < |f| && f[k].dayKey == key;
        assert k == |prev|;
        assert list[n - 1].dayKey == key;
      }
      if Qualifies(list[n - 1], today) && list[n - 1].dayKey == key && !HasDay(prev, key) {
        assert FirstOfDay(list, today, n - 1);
        assert f[|prev|] == list[n - 1];
      }
    }
  }

  /** One reduce step extends the reference selection by one sample. */
  lemma ReduceStep(list: seq<ForecastSample>, today: int, i: nat)
    requires i < |list|
    ensures Reduce(Firsts(list, today, i), list[i], today) == Firsts(list, today, i + 1)
  {
    FirstsHasDay(list, today, i, list[i].dayKey);
  }

  /** Every selected sample qualifies, and no two selected samples share a day. */
  lemma {:induction false} FirstsWellFormed(list: seq<ForecastSample>, today: int, n: nat)
    requires n <= |list|
    ensures forall k :: 0 <= k < |Firsts(list, today, n)| ==> Qualifies(Firsts(list, today, n)[k], today)
    ensures forall a, b :: 0 <= a < b < |Firsts(list, today, n)| ==> Firsts(list, today, n)[a].dayKey != Firsts(list, today, n)[b].dayKey
  {
    if n > 0 {
      FirstsWellFormed(list, today, n - 1);
      var prev := Firsts(list, today, n - 1);
      if FirstOfDay(list, today, n - 1) {
        FirstsHasDay(list, today, n - 1, list[n - 1].dayKey);
        var f := Firsts(list, today, n);
        forall a, b | 0 <= a < b < |f| ensures f[a].dayKey != f[b].dayKey {
          if b == |prev| {
            assert f[a] == prev[a];
            assert f[b] == list[n - 1];
          } else {
            assert f[a] == prev[a] && f[b] == prev[b];
          }
        }
      }
    }
  }

  /** `x` is the first qualifying sample of its day among the first `n`. */
  predicate FirstOfDayBefore(list: seq<ForecastSample>, today: int, n: int, x: ForecastSample)
  {
    exists i :: 0 <= i < n && FirstOfDay(list, today, i) && list[i] == x
  }

  /** Every selected sample is, for its day, the first qualifying sample of the input. */
  lemma {:induction false} FirstsAreFirstOfDay(list: seq<ForecastSample>, today: int, n: nat)
    requires n <= |list|
    ensures forall k :: 0 <= k < |Firsts(list, today, n)| ==> FirstOfDayBefore(list, today, n, Firsts(list, today, n)[k])
  {
    if n > 0 {
      FirstsAreFirstOfDay(list, today, n - 1);
      var prev := Firsts(list, today, n - 1);
      var f := Firsts(list, today, n);
      forall k | 0 <= k < |f| ensures FirstOfDayBefore(list, today, n, f[k]) {
        if k < |prev| {
          assert f[k] == prev[k];
          assert FirstOfDayBefore(list, today, n - 1, prev[k]);
          var i :| 0 <= i < n - 1 && FirstOfDay(list, today, i) && list[i] == prev[k];
          assert 0 <= i < n;
        } else {
          assert FirstOfDay(list, today, n - 1) && list[n - 1] == f[k];
        }
      }
    }
  }

  /** `ForecastList`'s `dailyForecast` plus `slice(0, 5)`; `None` when there is no data or no list, so nothing is rendered. */
  method DailyForecast(data: Option<ForecastReport>, today: int) returns (r: Option<seq<ForecastSample>>)
    ensures r.None? <==> data.None? || data.value.list.None?
    ensures r.Some? ==> var list := data.value.list.value; r.value == Cap(Firsts(list, today, |list|))
    ensures r.Some? ==> |r.value| <= MAX_DAYS
    ensures r.Some? ==> forall k :: 0 <= k < |r.value| ==>
              NOON_FROM <= r.value[k].hour <= NOON_TO && r.value[k].dayOfMonth != today
    ensures r.Some? ==> forall a, b :: 0 <= a < b < |r.value| ==> r.value[a].dayKey != r.value[b].dayKey
    ensures r.Some? ==> var list := data.value.list.value;
              forall k :: 0 <= k < |r.value| ==> FirstOfDayBefore(list, today, |list|, r.value[k])
    ensures r.Some? && |r.value| < MAX_DAYS ==> var list := data.value.list.value;
              forall j :: 0 <= j < |list| && Qualifies(list[j], today) ==> HasDay(r.value, list[j].dayKey)
  {
    if data.None? || data.value.list.None? {
      return None;
    }
    var list := data.value.list.value;
    var acc: seq<ForecastSample> := [];
    var i := 0;
    while i < |list|
      invariant 0 <= i <= |list|
      invariant acc == Firsts(list, today, i)
    {
      ReduceStep(list, today, i);
      acc := Reduce(acc, list[i], today);
      i := i + 1;
    }
    FirstsWellFormed(list, today, |list|);
    FirstsAreFirstOfDay(list, today, |list|);
    var capped := Cap(acc);
    if |capped| < MAX_DAYS {
      forall j | 0 <= j < |list| && Qualifies(list[j], today) ensures HasDay(capped, list[j].dayKey) {
        FirstsHasDay(list, today, |list|, list[j].dayKey);
      }
    }
    r := Some(capped);
  }
}

=== FILE: options.dfy ===
/** The optional value used for every field the source types as `T | undefined` or `T | null`. */
module Options {

  datatype Option<+T> = None | Some(value: T)
}

=== FILE: search_bar.dfy ===
/** `SearchBar.handleSubmit`: submit the trimmed term, if any, and clear the field. */
module SearchBar {
  import opened Options
  import opened Text
  import WeatherSession

  /** The search requested (if any) and the text left in the input field. */
  datatype Submission = Submission(search: Option<string>, term: string)

  function HandleSubmit(term: string): (r: Submission)
    ensures r.search.None? <==> AllSpace(term)
    ensures r.search.None? ==> r.term == term
    ensures r.search.Some? ==> r.term == ""
    ensures r.search.Some? ==>
              var q := r.search.value;
              && q != [] && !IsSpace(q[0]) && !IsSpace(q[|q| - 1])
              && exists i, j :: 0 <= i <= j <= |term| && q == term[i..j] && AllSpace(term[..i]) && AllSpace(term[j..])
  {
    var trimmed := Trim(term);
    if trimmed != "" then Submission(Some(trimmed), "") else Submission(None, term)
  }

  /** A submitted search never reaches `handleSearch` empty, so it always issues a weather request. */
  lemma SubmitAlwaysFetches(term: string, st: WeatherSession.WeatherState, g: WeatherSession.Gateway)
    requires !AllSpace(term)
    ensures var q := HandleSubmit(term).search.value;
            && q != ""
            && WeatherSession.HandleSearch(st, q, g).requests != []
  {
  }

  /** Submitting only whitespace changes nothing and searches nothing; submitting again is the same. */
  lemma BlankSubmitIsNoop(term: string)
    requires AllSpace(term)
    ensures HandleSubmit(term) == Submission(None, term)
    ensures HandleSubmit(HandleSubmit(term).term) == HandleSubmit(term)
  {
  }
}

=== FILE: text.dfy ===
/**
 * String helpers shared by the model: ASCII lower-casing (the source calls
 * `toLowerCase`), whitespace trimming (`trim`) and substring search (`includes`).
 */
module Text {

  /** Lower-cases one ASCII capital letter; every other character is returned unchanged. */
  function LowerChar(c: char): char
  {
    if 'A' <= c <= 'Z' then (c as int + 32) as char else c
  }

  /** ASCII lower-casing of a whole string, one character at a time. */
  function Lower(s: string): (r: string)
    ensures |r| == |s|
  {
    seq(|s|, i requires 0 <= i < |s| => LowerChar(s[i]))
  }

  lemma LowerAt(s: string)
    ensures forall i :: 0 <= i < |s| ==> Lower(s)[i] == LowerChar(s[i])
  {
  }

  /** Lower-casing checked character by character, for concrete strings. */
  lemma LowerIs(s: string, t: string)
    requires |s| == |t| && forall i :: 0 <= i < |s| ==> LowerChar(s[i]) == t[i]
    ensures Lower(s) == t
  {
    LowerAt(s);
  }

  /** No ASCII capital letter occurs in `s`. */
  predicate IsLower(s: string)
  {
    forall i :: 0 <= i < |s| ==> !('A' <= s[i] <= 'Z')
  }

  lemma LowerAppend(a: string, b: string)
    ensures Lower(a + b) == Lower(a) + Lower(b)
  {
    LowerAt(a);
    LowerAt(b);
    LowerAt(a + b);
    assert forall i :: 0 <= i < |a + b| ==> Lower(a + b)[i] == (Lower(a) + Lower(b))[i] by {
      forall i | 0 <= i < |a + b|
        ensures Lower(a + b)[i] == (Lower(a) + Lower(b))[i]
      {
        if i < |a| {
          assert (a + b)[i] == a[i];
        } else {
          assert (a + b)[i] == b[i - |a|];
        }
      }
    }
  }

  /** Lower-casing yields a lower-case string, and a lower-case string is its own lower-casing. */
  lemma LowerIsLower(s: string)
    ensures IsLower(Lower(s))
    ensures IsLower(s) <==> Lower(s) == s
  {
    LowerAt(s);
    if !IsLower(s) {
      var i :| 0 <= i < |s| && 'A' <= s[i] <= 'Z';
      assert Lower(s)[i] != s[i];
    }
  }

  /**
   * The characters ECMAScript `String.prototype.trim` removes: the WhiteSpace
   * code points (tab, vertical tab, form feed, space, no-break space, byte-order
   * mark and the other Unicode "Zs" spaces) and the LineTerminator code points.
   */
  predicate IsSpace(c: char)
  {
    || c == '\t' || c == '\n' || c == '\U{000B}' || c == '\U{000C}' || c == '\r' || c == ' '
    || c == '\U{00A0}' || c == '\U{1680}' || ('\U{2000}' <= c <= '\U{200A}')
    || c == '\U{2028}' || c == '\U{2029}' || c == '\U{202F}' || c == '\U{205F}'
    || c == '\U{3000}' || c == '\U{FEFF}'
  }

  predicate AllSpace(s: string)
  {
    forall i :: 0 <= i < |s| ==> IsSpace(s[i])
  }

  /** Drops leading whitespace: the result is a suffix of `s` and what was dropped is all whitespace. */
  function TrimStart(s: string): (r: string)
    ensures |r| <= |s| && r == s[|s| - |r|..]
    ensures AllSpace(s[..|s| - |r|])
    ensures r == [] || !IsSpace(r[0])
  {
    if |s| > 0 && IsSpace(s[0]) then
      var r := TrimStart(s[1..]);
      assert s[..|s| - |r|] == [s[0]] + s[1..][..|s| - 1 - |r|];
      r
    else s
  }

  /** Drops trailing whitespace: the result is a prefix of `s` and what was dropped is all whitespace. */
  function TrimEnd(s: string): (r: string)
    ensures |r| <= |s| && r == s[..|r|]
    ensures AllSpace(s[|r|..])
    ensures r == [] || !IsSpace(r[|r| - 1])
  {
    if |s| > 0 && IsSpace(s[|s| - 1]) then
      var r := TrimEnd(s[..|s| - 1]);
      assert s[|r|..] == s[..|s| - 1][|r|..] + [s[|s| - 1]];
      r
    else s
  }

  /**
   * Trims both ends: the result is a contiguous slice of `s`, everything cut off
   * on either side is whitespace, and the result neither starts nor ends with
   * whitespace. It is empty exactly when `s` is all whitespace.
   */
  function Trim(s: string): (r: string)
    ensures exists i, j :: 0 <= i <= j <= |s| && r == s[i..j] && AllSpace(s[..i]) && AllSpace(s[j..])
    ensures r != [] ==> !IsSpace(r[0]) && !IsSpace(r[|r| - 1])
    ensures r == [] <==> AllSpace(s)
  {
    TrimBothEnds(s);
    TrimEnd(TrimStart(s))
  }

  lemma TrimBothEnds(s: string)
    ensures var r := TrimEnd(TrimStart(s));
      && (exists i, j :: 0 <= i <= j <= |s| && r == s[i..j] && AllSpace(s[..i]) && AllSpace(s[j..]))
      && (r != [] ==> !IsSpace(r[0]) && !IsSpace(r[|r| - 1]))
      && (r == [] <==> AllSpace(s))
  {
    var t := TrimStart(s);
    var r := TrimEnd(t);
    var i := |s| - |t|;
    var j := i + |r|;
    assert r == s[i..j];
    assert s[j..] == t[|r|..];
    if r == [] {
      assert t[0..] == t;
      assert s[..i] == s;
    } else {
      assert r[0] == t[0];
    }
  }

  /** `p` occurs in `s` at position `i`. */
  predicate OccursAt(s: string, p: string, i: int)
  {
    0 <= i && i + |p| <= |s| && s[i..i + |p|] == p
  }

  /** Substring test, as `String.prototype.includes`. */
  function Contains(s: string, p: string): bool
    decreases |s|
  {
    if |p| > |s| then false
    else if s[..|p|] == p then true
    else |s| > 0 && Contains(s[1..], p)
  }

  lemma {:induction false} ContainsMeansOccurs(s: string, p: string)
    ensures Contains(s, p) <==> exists i :: OccursAt(s, p, i)
    decreases |s|
  {
    if |p| > |s| {
    } else if s[..|p|] == p {
      assert OccursAt(s, p, 0);
    } else {
      ContainsMeansOccurs(s[1..], p);
      if exists i :: OccursAt(s[1..], p, i) {
        var i :| OccursAt(s[1..], p, i);
        assert s[1..][i..i + |p|] == s[i + 1..i + 1 + |p|];
        assert OccursAt(s, p, i + 1);
      }
      if exists i :: OccursAt(s, p, i) {
        var i :| OccursAt(s, p, i);
        assert i != 0;
        assert s[1..][i - 1..i - 1 + |p|] == s[i..i + |p|];
        assert OccursAt(s[1..], p, i - 1);
      }
    }
  }

  /** For a three-character string, a two-character pattern occurs at position 0 or at position 1. */
  lemma ContainsInThree(s: string)
    requires |s| == 3
    ensures forall p :: |p| == 2 ==> (Contains(s, p) <==> (s[0] == p[0] && s[1] == p[1]) || (s[1] == p[0] && s[2] == p[1]))
  {
    forall p | |p| == 2
      ensures Contains(s, p) <==> (s[0] == p[0] && s[1] == p[1]) || (s[1] == p[0] && s[2] == p[1])
    {
      assert s[..2] == p <==> s[0] == p[0] && s[1] == p[1];
      assert s[1..][..2] == p <==> s[1] == p[0] && s[2] == p[1];
      assert !Contains(s[1..][1..], p);
    }
  }
}

=== FILE: unit_toggle.dfy ===
/** The unit switch of `utils/unitToggle.tsx`: a toggle handler and a °C / °F button pair. */
module UnitToggle {
  import opened WeatherApi

  datatype UnitButton = CelsiusButton | FahrenheitButton

  /** `handleToggle`: the unit passed to `onUnitChange` is the other one. */
  function HandleToggle(units: Units): (r: Units)
    ensures r != units
  {
    if units == Metric then Imperial else Metric
  }

  /** The unit a button requests, whatever unit is current. */
  function Requested(b: UnitButton): (r: Units)
    ensures r == Metric <==> b == CelsiusButton
  {
    match b
    case CelsiusButton => Metric
    case FahrenheitButton => Imperial
  }

  /** A button is drawn active when it shows the current unit. */
  function IsActive(b: UnitButton, units: Units): (r: bool)
    ensures r <==> (b == CelsiusButton <==> units == Metric)
  {
    Requested(b) == units
  }

  /** Toggling twice gives back the unit it started from. */
  lemma ToggleInvolution(units: Units)
    ensures HandleToggle(HandleToggle(units)) == units
  {
  }

  /** Exactly one button is active, and toggling hands over to the other button's unit. */
  lemma ExactlyOneActive(units: Units)
    ensures IsActive(CelsiusButton, units) != IsActive(FahrenheitButton, units)
    ensures IsActive(CelsiusButton, units) <==> units == Metric
    ensures forall b :: IsActive(b, units) ==> !IsActive(b, HandleToggle(units))
    ensures Requested(CelsiusButton) == Metric && Requested(FahrenheitButton) == Imperial
  {
  }
}

=== FILE: weather_api.dfy ===
/**
 * The gateway contract of the OpenWeatherMap client: request URLs, the
 * response-status check of the two fetch helpers, and the icon URL.
 * The network round trip itself is an input: a `Reply` is what `fetch`
 * resolved to (an HTTP status flag with an already-decoded body) or the value
 * it rejected with.
 */
module WeatherApi {
  import opened Options
  import opened Text

  /** The unit system sent as the `units` query parameter. */
  datatype Units = Metric | Imperial

  /** One entry of the `weather` array of a response. */
  datatype Condition = Condition(description: string, icon: string)

  /** The fields of a current-weather response the client reads; temperatures are pre-rounded. */
  datatype WeatherReport = WeatherReport(
    name: string,
    country: string,
    temp: int,
    conditions: seq<Condition>,
    timezone: int)

  /**
   * A 3-hourly forecast sample with its timestamp already converted: `dayKey`
   * is the calendar date of `dt` as the client keys it, `dayOfMonth` and `hour`
   * are the device-local day of month and hour of `dt`.
   */
  datatype ForecastSample = ForecastSample(dt: int, dayKey: string, dayOfMonth: int, hour: int)

  /** A forecast response; `list` is absent when the body carries none. */
  datatype ForecastReport = ForecastReport(list: Option<seq<ForecastSample>>)

  /** A value thrown or rejected with: an `Error` object with its message, or anything else. */
  datatype Thrown = ErrorValue(message: string) | NonErrorValue

  /** What `fetch` settled with: a response (status ok or not, decoded body), or a rejection. */
  datatype Reply<T> = Response(ok: bool, body: T) | Rejected(reason: Thrown)

  datatype Result<T> = Success(value: T) | Failure(thrown: Thrown)

  /** A request that was issued and the outcome the helper resolved or rejected with. */
  datatype Call<T> = Call(url: string, result: Result<T>)

  const BASE_URL: string := "https://api.openweathermap.org/data/2.5"
  const ICON_PREFIX: string := "https://openweathermap.org/img/wn/"
  const ICON_SUFFIX: string := "@2x.png"
  const WEATHER_NOT_FOUND: string := "Weather data not found!"
  const FORECAST_NOT_FOUND: string := "Forecast data not found!"

  function UnitsParam(u: Units): string
  {
    match u
    case Metric => "metric"
    case Imperial => "imperial"
  }

  /** An omitted `units` argument defaults to metric. */
  function EffectiveUnits(u: Option<Units>): Units
  {
    match u
    case Some(v) => v
    case None => Metric
  }

  /** `{BASE_URL}{path}?q={city}&appid={key}&units={units}`; the city is inserted verbatim, unescaped. */
  function RequestUrl(path: string, city: string, key: string, units: Option<Units>): string
  {
    BASE_URL + path + "?q=" + city + "&appid=" + key + "&units=" + UnitsParam(EffectiveUnits(units))
  }

  function WeatherUrl(city: string, key: string, units: Option<Units>): string
  {
    RequestUrl("/weather", city, key, units)
  }

  function ForecastUrl(city: string, key: string, units: Option<Units>): string
  {
    RequestUrl("/forecast", city, key, units)
  }

  /** The status check both helpers share: an ok response yields its body, a non-ok one an `Error(notFound)`, a rejection is re-thrown. */
  function Receive<T>(reply: Reply<T>, notFound: string): (r: Result<T>)
    ensures reply.Response? && reply.ok <==> r.Success?
    ensures r.Success? ==> r.value == reply.body
    ensures reply.Response? && !reply.ok ==> r == Failure(ErrorValue(notFound))
    ensures reply.Rejected? ==> r == Failure(reply.reason)
  {
    match reply
    case Response(ok, body) => if ok then Success(body) else Failure(ErrorValue(notFound))
    case Rejected(reason) => Failure(reason)
  }

  /** `fetchWeatherByCity`: one GET of the current-weather endpoint. */
  function FetchWeatherByCity(city: string, units: Option<Units>, key: string, reply: Reply<WeatherReport>): (r: Call<WeatherReport>)
    ensures r.url == BASE_URL + "/weather?q=" + city + "&appid=" + key + "&units=" + UnitsParam(EffectiveUnits(units))
    ensures reply.Response? && !reply.ok ==> r.result == Failure(ErrorValue("Weather data not found!"))
    ensures reply.Response? && reply.ok ==> r.result == Success(reply.body)
    ensures reply.Rejected? ==> r.result == Failure(reply.reason)
  {
    Call(WeatherUrl(city, key, units), Receive(reply, WEATHER_NOT_FOUND))
  }

  /** `fetchForecastByCity`: one GET of the forecast endpoint. */
  function FetchForecastByCity(city: string, units: Option<Units>, key: string, reply: Reply<ForecastReport>): (r: Call<ForecastReport>)
    ensures r.url == BASE_URL + "/forecast?q=" + city + "&appid=" + key + "&units=" + UnitsParam(EffectiveUnits(units))
    ensures reply.Response? && !reply.ok ==> r.result == Failure(ErrorValue("Forecast data not found!"))
    ensures reply.Response? && reply.ok ==> r.result == Success(reply.body)
    ensures reply.Rejected? ==> r.result == Failure(reply.reason)
  {
    Call(ForecastUrl(city, key, units), Receive(reply, FORECAST_NOT_FOUND))
  }

  /** Omitting `units` requests exactly what passing metric requests. */
  lemma DefaultUnitsAreMetric(city: string, key: string)
    ensures WeatherUrl(city, key, None) == WeatherUrl(city, key, Some(Metric))
    ensures ForecastUrl(city, key, None) == ForecastUrl(city, key, Some(Metric))
    ensures Contains(WeatherUrl(city, key, None), "&units=metric")
  {
    var u := WeatherUrl(city, key, None);
    var pre := BASE_URL + "/weather" + "?q=" + city + "&appid=" + key;
    assert u == pre + "&units=metric";
    assert OccursAt(u, "&units=metric", |pre|);
    ContainsMeansOccurs(u, "&units=metric");
  }

  /** For a fixed key and unit system the request URL determines the city. */
  lemma WeatherUrlDeterminesCity(c1: string, c2: string, key: string, units: Option<Units>)
    requires WeatherUrl(c1, key, units) == WeatherUrl(c2, key, units)
    ensures c1 == c2
  {
    var pre := BASE_URL + "/weather" + "?q=";
    var post := "&appid=" + key + "&units=" + UnitsParam(EffectiveUnits(units));
    var u := WeatherUrl(c1, key, units);
    assert u == pre + c1 + post;
    assert WeatherUrl(c2, key, units) == pre + c2 + post;
    assert |c1| == |c2|;
    assert c1 == u[|pre|..|pre| + |c1|];
    assert c2 == u[|pre|..|pre| + |c2|];
  }

  /**
   * Because the city is not escaped, a city containing `&appid=` can produce
   * the same request as a different city with a different key.
   */
  lemma UnescapedCityIsAmbiguous(a: string, k: string, x: string, units: Option<Units>)
    ensures a + "&appid=" + k != a
    ensures WeatherUrl(a + "&appid=" + k, x, units) == WeatherUrl(a, k + "&appid=" + x, units)
  {
  }

  function GetWeatherIconUrl(iconCode: string): (r: string)
    ensures |r| == |ICON_PREFIX| + |iconCode| + |ICON_SUFFIX|
    ensures r[..|ICON_PREFIX|] == ICON_PREFIX
    ensures r[|ICON_PREFIX|..|ICON_PREFIX| + |iconCode|] == iconCode
    ensures r[|ICON_PREFIX| + |iconCode|..] == ICON_SUFFIX
  {
    var r := ICON_PREFIX + iconCode + ICON_SUFFIX;
    assert r[..|ICON_PREFIX|] == ICON_PREFIX;
    assert r[|ICON_PREFIX|..|ICON_PREFIX| + |iconCode|] == iconCode;
    assert r[|ICON_PREFIX| + |iconCode|..] == ICON_SUFFIX;
    r
  }

  /** Recovers the icon code from an icon URL; `None` when the URL has a different shape. */
  function IconCodeOf(url: string): (r: Option<string>)
  {
    if |url| >= |ICON_PREFIX| + |ICON_SUFFIX|
       && url[..|ICON_PREFIX|] == ICON_PREFIX
       && url[|url| - |ICON_SUFFIX|..] == ICON_SUFFIX
    then Some(url[|ICON_PREFIX|..|url| - |ICON_SUFFIX|])
    else None
  }

  lemma IconUrlRoundTrip(iconCode: string)
    ensures IconCodeOf(GetWeatherIconUrl(iconCode)) == Some(iconCode)
  {
  }

  lemma IconUrlInjective(a: string, b: string)
    requires GetWeatherIconUrl(a) == GetWeatherIconUrl(b)
    ensures a == b
  {
    IconUrlRoundTrip(a);
    IconUrlRoundTrip(b);
  }
}

=== FILE: weather_session.dfy ===
/**
 * The search session of the `useWeather` hook: state, the `fetchWeatherData`
 * transition (loading, then success or failure), `handleSearch` and the unit
 * change that refetches the current city. The gateway's replies are inputs;
 * a transition reports the request URLs it issued, in order.
 */
module WeatherSession {
  import opened Options
  import opened WeatherApi

  const DEFAULT_CITY: string := "vancouver"
  const ERROR_PREFIX: string := "Error fetching weather data: "
  const UNKNOWN_ERROR: string := "Unknown error occurred"

  datatype WeatherState = WeatherState(
    weatherData: Option<WeatherReport>,
    forecastData: Option<ForecastReport>,
    loading: bool,
    error: Option<string>,
    city: string,
    units: Units)

  /** The replies the gateway gives to this run's requests, and the API key. */
  datatype Gateway = Gateway(key: string, weatherReply: Reply<WeatherReport>, forecastReply: Reply<ForecastReport>)

  /** Requests issued, in order, and the state once everything has settled. */
  datatype Run = Run(requests: seq<string>, state: WeatherState)

  /** The hook's `defaultCity` argument: "vancouver" when the caller leaves it out. */
  function StartCity(defaultCity: Option<string>): string
  {
    match defaultCity
    case Some(c) => c
    case None => DEFAULT_CITY
  }

  /** The hook's initial state. */
  function Initial(defaultCity: Option<string>): (st: WeatherState)
    ensures defaultCity.Some? ==> st.city == defaultCity.value
    ensures defaultCity.None? ==> st.city == "vancouver"
    ensures st.units == Metric && !st.loading
    ensures st.error.None? && st.weatherData.None? && st.forecastData.None?
  {
    WeatherState(None, None, false, None, StartCity(defaultCity), Metric)
  }

  /** Exactly one of: an error and no data, or no error and both responses. Loading has ended. */
  predicate Settled(st: WeatherState)
  {
    && !st.loading
    && ((st.error.Some? && st.weatherData.None? && st.forecastData.None?)
        || (st.error.None? && st.weatherData.Some? && st.forecastData.Some?))
  }

  /** The message shown for a thrown value. */
  function ErrorMessage(t: Thrown): (r: string)
    ensures |r| >= |ERROR_PREFIX| && r[..|ERROR_PREFIX|] == ERROR_PREFIX
    ensures t.ErrorValue? ==> r[|ERROR_PREFIX|..] == t.message
    ensures t.NonErrorValue? ==> r[|ERROR_PREFIX|..] == UNKNOWN_ERROR
  {
    var detail := match t
      case ErrorValue(m) => m
      case NonErrorValue => UNKNOWN_ERROR;
    ERROR_PREFIX + detail
  }

  /** Start of `fetchWeatherData`: loading on, error cleared, everything else kept. */
  function Begin(st: WeatherState): (r: WeatherState)
    ensures r.loading && r.error.None?
    ensures r.weatherData == st.weatherData && r.forecastData == st.forecastData
    ensures r.city == st.city && r.units == st.units
  {
    st.(loading := true, error := None)
  }

  /** The catch and finally blocks: error set, both data cleared, loading off; city unchanged. */
  function Fail(st: WeatherState, t: Thrown): (r: WeatherState)
    ensures Settled(r) && r.error == Some(ErrorMessage(t))
    ensures r.city == st.city && r.units == st.units
  {
    st.(error := Some(ErrorMessage(t)), weatherData := None, forecastData := None, loading := false)
  }

  /** The value the catch block receives: the weather request's failure, else the forecast request's, else none. */
  function ThrownBy(g: Gateway): Option<Thrown>
  {
    match Receive(g.weatherReply, WEATHER_NOT_FOUND)
    case Failure(t) => Some(t)
    case Success(_) =>
      match Receive(g.forecastReply, FORECAST_NOT_FOUND)
      case Failure(t) => Some(t)
      case Success(_) => None
  }

  /**
   * `fetchWeatherData(searchCity)`: the weather request first; the forecast
   * request only once the weather request has succeeded.
   */
  function FetchWeatherData(st: WeatherState, searchCity: string, g: Gateway): (r: Run)
    ensures Settled(r.state) && r.state.units == st.units
    ensures 1 <= |r.requests| <= 2 && r.requests[0] == WeatherUrl(searchCity, g.key, Some(st.units))
    ensures |r.requests| == 2 <==> Receive(g.weatherReply, WEATHER_NOT_FOUND).Success?
    ensures |r.requests| == 2 ==> r.requests[1] == ForecastUrl(searchCity, g.key, Some(st.units))
    ensures r.state.error.None? <==> g.weatherReply.Response? && g.weatherReply.ok
                                     && g.forecastReply.Response? && g.forecastReply.ok
    ensures r.state.error.None? ==>
              && r.state.city == searchCity
              && r.state.weatherData == Some(g.weatherReply.body)
              && r.state.forecastData == Some(g.forecastReply.body)
    ensures r.state.error.Some? ==> r.state.city == st.city
    ensures r.state.error.Some? <==> ThrownBy(g).Some?
    ensures r.state.error.Some? ==> r.state.error == Some(ErrorMessage(ThrownBy(g).value))
  {
    var started := Begin(st);
    var w := FetchWeatherByCity(searchCity, Some(st.units), g.key, g.weatherReply);
    match w.result
    case Failure(t) => Run([w.url], Fail(started, t))
    case Success(weather) =>
      var f := FetchForecastByCity(searchCity, Some(st.units), g.key, g.forecastReply);
      match f.result
      case Failure(t) => Run([w.url, f.url], Fail(started, t))
      case Success(forecast) =>
        Run([w.url, f.url], started.(weatherData := Some(weather), forecastData := Some(forecast), city := searchCity, loading := false))
  }

  /** `handleSearch`: an empty search term does nothing. */
  function HandleSearch(st: WeatherState, searchCity: string, g: Gateway): (r: Run)
    ensures searchCity == "" ==> r == Run([], st)
    ensures searchCity != "" ==> Settled(r.state) && r.requests != []
                                 && r.requests[0] == WeatherUrl(searchCity, g.key, Some(st.units))
    ensures searchCity != "" ==> r.state.units == st.units && (r.state.error.Some? <==> ThrownBy(g).Some?)
    ensures searchCity != "" && r.state.error.None? ==>
              && r.state.city == searchCity
              && r.state.weatherData == Some(g.weatherReply.body)
              && r.state.forecastData == Some(g.forecastReply.body)
    ensures searchCity != "" && r.state.error.Some? ==>
              && r.state.city == st.city
              && ThrownBy(g).Some? && r.state.error == Some(ErrorMessage(ThrownBy(g).value))
  {
    if searchCity != "" then FetchWeatherData(st, searchCity, g) else Run([], st)
  }

  /**
   * `handleUnitChange` followed by the effect on `units`: setting the same unit
   * is no change; a new unit refetches the current city, if there is one, in
   * the new unit system.
   */
  function ChangeUnits(st: WeatherState, newUnit: Units, g: Gateway): (r: Run)
    ensures r.state.units == newUnit
    ensures newUnit == st.units ==> r == Run([], st)
    ensures newUnit != st.units && st.city != "" ==>
              Settled(r.state) && |r.requests| >= 1 && r.requests[0] == WeatherUrl(st.city, g.key, Some(newUnit))
    ensures newUnit != st.units && st.city == "" ==> r == Run([], st.(units := newUnit))
    ensures r.state.city == st.city
    ensures newUnit != st.units && st.city != "" ==> (r.state.error.Some? <==> ThrownBy(g).Some?)
    ensures newUnit != st.units && st.city != "" && r.state.error.None? ==>
              r.state.weatherData == Some(g.weatherReply.body) && r.state.forecastData == Some(g.forecastReply.body)
    ensures newUnit != st.units && st.city != "" && r.state.error.Some? ==>
              ThrownBy(g).Some? && r.state.error == Some(ErrorMessage(ThrownBy(g).value))
  {
    if newUnit == st.units then Run([], st)
    else
      var next := st.(units := newUnit);
      if next.city != "" then FetchWeatherData(next, next.city, g) else Run([], next)
  }

  /** The fetch on mount, for the default city in metric units. */
  function Mount(defaultCity: Option<string>, g: Gateway): (r: Run)
    ensures defaultCity.Some? ==> |r.requests| >= 1 && r.requests[0] == WeatherUrl(defaultCity.value, g.key, Some(Metric))
    ensures defaultCity.None? ==> |r.requests| >= 1 && r.requests[0] == WeatherUrl("vancouver", g.key, Some(Metric))
    ensures Settled(r.state) && r.state.units == Metric
  {
    var city := StartCity(defaultCity);
    FetchWeatherData(Initial(defaultCity), city, g)
  }

  /** A weather lookup the gateway answers "not found" shows exactly this message. */
  lemma NotFoundMessage(st: WeatherState, searchCity: string, key: string, forecastReply: Reply<ForecastReport>, body: WeatherReport)
    ensures var r := FetchWeatherData(st, searchCity, Gateway(key, Response(false, body), forecastReply));
            && r.state.error == Some("Error fetching weather data: Weather data not found!")
            && |r.requests| == 1
  {
    assert ERROR_PREFIX + WEATHER_NOT_FOUND == "Error fetching weather data: Weather data not found!";
  }

  /** A weather lookup that succeeds followed by a forecast lookup answered "not found" shows the forecast message. */
  lemma ForecastNotFoundMessage(st: WeatherState, searchCity: string, key: string, weather: WeatherReport, body: ForecastReport)
    ensures var r := FetchWeatherData(st, searchCity, Gateway(key, Response(true, weather), Response(false, body)));
            && r.state.error == Some("Error fetching weather data: Forecast data not found!")
            && |r.requests| == 2
  {
    assert ERROR_PREFIX + FORECAST_NOT_FOUND == "Error fetching weather data: Forecast data not found!";
  }

  /** A rejection carrying an `Error` shows its message after the fixed prefix. */
  lemma RejectedErrorMessage(st: WeatherState, searchCity: string, g: Gateway, m: string)
    requires g.weatherReply == Rejected(ErrorValue(m))
    ensures FetchWeatherData(st, searchCity, g).state.error == Some(ERROR_PREFIX + m)
  {
  }

  /** A rejection with a non-`Error` value shows the fallback message. */
  lemma NonErrorMessage(st: WeatherState, searchCity: string, g: Gateway)
    requires g.weatherReply == Rejected(NonErrorValue)
    ensures FetchWeatherData(st, searchCity, g).state.error == Some("Error fetching weather data: Unknown error occurred")
  {
    assert ERROR_PREFIX + UNKNOWN_ERROR == "Error fetching weather data: Unknown error occurred";
  }

  /** The message determines what was thrown: `ErrorMessage` is injective on `Error` messages. */
  lemma ErrorMessageInjective(m1: string, m2: string)
    requires ErrorMessage(ErrorValue(m1)) == ErrorMessage(ErrorValue(m2))
    ensures m1 == m2
  {
  }

  /**
   * Switching to the other unit system and back, with every reply ok, shows the
   * same city in the original units again, and the way back requests the city
   * in those units.
   */
  lemma ChangeUnitsAndBack(st: WeatherState, g: Gateway)
    requires st.city != ""
    requires g.weatherReply.Response? && g.weatherReply.ok && g.forecastReply.Response? && g.forecastReply.ok
    ensures var other := if st.units == Metric then Imperial else Metric;
            var there := ChangeUnits(st, other, g);
            var back := ChangeUnits(there.state, st.units, g);
            && there.state.city == st.city && there.state.units == other && there.state.error.None?
            && back.state.city == st.city && back.state.units == st.units && back.state.error.None?
            && |back.requests| == 2 && back.requests[0] == WeatherUrl(st.city, g.key, Some(st.units))
  {
  }

  /** A non-empty search whose two replies are both ok displays the searched city, after two requests. */
  lemma SuccessfulSearchSetsCity(st: WeatherState, searchCity: string, g: Gateway)
    requires searchCity != ""
    requires g.weatherReply.Response? && g.weatherReply.ok && g.forecastReply.Response? && g.forecastReply.ok
    ensures var r := HandleSearch(st, searchCity, g);
            r.state.city == searchCity && r.state.error.None? && |r.requests| == 2
  {
  }
}

=== FILE: weather_styles.dfy ===
/**
 * The decisions `CurrentWeather` and `ForecastItem` take before rendering:
 * background and condition styles from an OpenWeatherMap icon code (first
 * matching substring wins), the time-of-day bucket of the city's local hour,
 * the city clock arithmetic, unit labels, and when the min/max range shows.
 */
module WeatherStyles {
  import opened Options
  import opened Text
  import opened WeatherApi

  /** Background of the current-weather card (`getWeatherStyle`). */
  datatype Background = ClearBg | CloudBg | RainBg | ThunderBg | SnowBg | FogBg | NoBg

  /** Style of a forecast card (`getWeatherConditionStyle`). */
  datatype ConditionStyle = Sunny | Cloudy | Rainy | Stormy | Snowy | NoCondition

  datatype TimeOfDay = Morning | Afternoon | Evening | Night

  function WeatherBackground(iconCode: string): (r: Background)
    ensures r == ClearBg <==> Contains(iconCode, "01")
    ensures r == CloudBg <==> !Contains(iconCode, "01")
                              && (Contains(iconCode, "02") || Contains(iconCode, "03") || Contains(iconCode, "04"))
    ensures r == RainBg <==> !Contains(iconCode, "01") && !Contains(iconCode, "02") && !Contains(iconCode, "03")
                             && !Contains(iconCode, "04") && (Contains(iconCode, "09") || Contains(iconCode, "10"))
    ensures r == ThunderBg <==> !Contains(iconCode, "01") && !Contains(iconCode, "02") && !Contains(iconCode, "03")
                                && !Contains(iconCode, "04") && !Contains(iconCode, "09") && !Contains(iconCode, "10")
                                && Contains(iconCode, "11")
    ensures r == SnowBg <==> !Contains(iconCode, "01") && !Contains(iconCode, "02") && !Contains(iconCode, "03")
                             && !Contains(iconCode, "04") && !Contains(iconCode, "09") && !Contains(iconCode, "10")
                             && !Contains(iconCode, "11") && Contains(iconCode, "13")
    ensures r == FogBg <==> !Contains(iconCode, "01") && !Contains(iconCode, "02") && !Contains(iconCode, "03")
                            && !Contains(iconCode, "04") && !Contains(iconCode, "09") && !Contains(iconCode, "10")
                            && !Contains(iconCode, "11") && !Contains(iconCode, "13") && Contains(iconCode, "50")
    ensures r == NoBg <==> !Contains(iconCode, "01") && !Contains(iconCode, "02") && !Contains(iconCode, "03")
                           && !Contains(iconCode, "04") && !Contains(iconCode, "09") && !Contains(iconCode, "10")
                           && !Contains(iconCode, "11") && !Contains(iconCode, "13") && !Contains(iconCode, "50")
  {
    if Contains(iconCode, "01") then ClearBg
    else if Contains(iconCode, "02") || Contains(iconCode, "03") || Contains(iconCode, "04") then CloudBg
    else if Contains(iconCode, "09") || Contains(iconCode, "10") then RainBg
    else if Contains(iconCode, "11") then ThunderBg
    else if Contains(iconCode, "13") then SnowBg
    else if Contains(iconCode, "50") then FogBg
    else NoBg
  }

  function ConditionStyleOf(code: string): (r: ConditionStyle)
    ensures r == Sunny <==> Contains(code, "01") || Contains(code, "02")
    ensures r == Cloudy <==> !Contains(code, "01") && !Contains(code, "02")
                             && (Contains(code, "03") || Contains(code, "04"))
    ensures r == Rainy <==> !Contains(code, "01") && !Contains(code, "02") && !Contains(code, "03")
                            && !Contains(code, "04") && (Contains(code, "09") || Contains(code, "10"))
    ensures r == Stormy <==> !Contains(code, "01") && !Contains(code, "02") && !Contains(code, "03")
                             && !Contains(code, "04") && !Contains(code, "09") && !Contains(code, "10")
                             && Contains(code, "11")
    ensures r == Snowy <==> !Contains(code, "01") && !Contains(code, "02") && !Contains(code, "03")
                            && !Contains(code, "04") && !Contains(code, "09") && !Contains(code, "10")
                            && !Contains(code, "11") && Contains(code, "13")
    ensures r == NoCondition <==> !Contains(code, "01") && !Contains(code, "02") && !Contains(code, "03")
                                  && !Contains(code, "04") && !Contains(code, "09") && !Contains(code, "10")
                                  && !Contains(code, "11") && !Contains(code, "13")
  {
    if Contains(code, "01") || Contains(code, "02") then Sunny
    else if Contains(code, "03") || Contains(code, "04") then Cloudy
    else if Contains(code, "09") || Contains(code, "10") then Rainy
    else if Contains(code, "11") then Stormy
    else if Contains(code, "13") then Snowy
    else NoCondition
  }

  /**
   * The two classifiers agree category by category, except that a code whose
   * first match is "02" is clouds on the current-weather card but sunny on a
   * forecast card, and fog has no forecast style.
   */
  lemma ConditionFromBackground(code: string)
    ensures ConditionStyleOf(code) ==
              match WeatherBackground(code)
              case ClearBg => Sunny
              case CloudBg => if Contains(code, "02") then Sunny else Cloudy
              case RainBg => Rainy
              case ThunderBg => Stormy
              case SnowBg => Snowy
              case FogBg => NoCondition
              case NoBg => NoCondition
  {
  }

  lemma ClearSkyCodes()
    ensures WeatherBackground("01d") == ClearBg && ConditionStyleOf("01d") == Sunny
    ensures WeatherBackground("01n") == ClearBg
  {
    ContainsInThree("01d");
    ContainsInThree("01n");
  }

  /** "02d" (few clouds) is clouds on the current-weather card and sunny on a forecast card. */
  lemma FewCloudsCode()
    ensures WeatherBackground("02d") == CloudBg && ConditionStyleOf("02d") == Sunny
  {
    ContainsInThree("02d");
  }

  lemma BrokenCloudsCode()
    ensures WeatherBackground("04n") == CloudBg && ConditionStyleOf("04n") == Cloudy
  {
    ContainsInThree("04n");
  }

  lemma RainCode()
    ensures WeatherBackground("10d") == RainBg && ConditionStyleOf("10d") == Rainy
  {
    ContainsInThree("10d");
  }

  /** "50d" (mist) is fog on the current-weather card and has no forecast style. */
  lemma MistCode()
    ensures WeatherBackground("50d") == FogBg && ConditionStyleOf("50d") == NoCondition
  {
    ContainsInThree("50d");
  }

  /** "xyz" contains none of the patterns, so it gets neither a background nor a forecast style. */
  lemma UnknownCode()
    ensures WeatherBackground("xyz") == NoBg && ConditionStyleOf("xyz") == NoCondition
  {
    ContainsInThree("xyz");
  }

  /** The hour buckets of the card background. */
  function TimeOfDayOf(hour: int): (r: TimeOfDay)
    ensures r == Morning <==> 5 <= hour < 12
    ensures r == Afternoon <==> 12 <= hour < 18
    ensures r == Evening <==> 18 <= hour < 21
    ensures r == Night <==> hour < 5 || hour >= 21
  {
    if hour >= 5 && hour < 12 then Morning
    else if hour >= 12 && hour < 18 then Afternoon
    else if hour >= 18 && hour < 21 then Evening
    else Night
  }

  const MS_PER_MINUTE: int := 60000
  const MS_PER_SECOND: int := 1000
  const MS_PER_HOUR: int := 3600000

  /** The device renders an instant `t` at wall-clock `t - offset` (`getTimezoneOffset` is UTC minus local, in minutes). */
  function DeviceWallClock(t: int, deviceOffsetMinutes: int): int
  {
    t - deviceOffsetMinutes * MS_PER_MINUTE
  }

  /** The city's wall-clock reading for the instant `now`, its UTC offset given in seconds. */
  function CityWallClock(now: int, timezoneSeconds: int): int
  {
    now + timezoneSeconds * MS_PER_SECOND
  }

  /**
   * `cityTime`: the instant that, rendered by the device, shows the city's
   * current wall-clock time.
   */
  function CityTimeMs(now: int, deviceOffsetMinutes: int, timezoneSeconds: int): (r: int)
    ensures DeviceWallClock(r, deviceOffsetMinutes) == CityWallClock(now, timezoneSeconds)
  {
    var utcTime := now + deviceOffsetMinutes * MS_PER_MINUTE;
    utcTime + timezoneSeconds * MS_PER_SECOND
  }

  /** Hour of a wall-clock reading, as `getHours` reports it (floor division, so negative epochs work too). */
  function HourOf(wallClock: int): (r: int)
    ensures 0 <= r < 24
    ensures r * MS_PER_HOUR <= wallClock % (24 * MS_PER_HOUR) < (r + 1) * MS_PER_HOUR
  {
    (wallClock / MS_PER_HOUR) % 24
  }

  /** One hour later on the wall clock the hour advances by one, wrapping from 23 to 0. */
  lemma HourOfNextHour(wallClock: int)
    ensures HourOf(wallClock + MS_PER_HOUR) == (HourOf(wallClock) + 1) % 24
  {
    HourCountStep(wallClock);
    ModSuccessor(wallClock / MS_PER_HOUR);
  }

  /** Adding an hour adds one to the number of whole hours elapsed. */
  lemma HourCountStep(wallClock: int)
    ensures (wallClock + MS_PER_HOUR) / MS_PER_HOUR == wallClock / MS_PER_HOUR + 1
  {
  }

  /** The successor modulo 24 can be taken before or after reducing. */
  lemma ModSuccessor(q: int)
    ensures (q + 1) % 24 == (q % 24 + 1) % 24
  {
  }

  /** The bucket `CurrentWeather` shows for a city. */
  function CityTimeOfDay(now: int, deviceOffsetMinutes: int, timezoneSeconds: int): TimeOfDay
  {
    TimeOfDayOf(HourOf(DeviceWallClock(CityTimeMs(now, deviceOffsetMinutes, timezoneSeconds), deviceOffsetMinutes)))
  }

  /** The bucket depends on the city's clock only, not on the device's time zone. */
  lemma CityTimeOfDayIgnoresDeviceZone(now: int, off1: int, off2: int, timezoneSeconds: int)
    ensures CityTimeOfDay(now, off1, timezoneSeconds) == CityTimeOfDay(now, off2, timezoneSeconds)
    ensures CityTimeOfDay(now, off1, timezoneSeconds) == TimeOfDayOf(HourOf(CityWallClock(now, timezoneSeconds)))
  {
  }

  /** The temperature unit label of both cards. */
  function TempUnitLabel(u: Units): (r: string)
    ensures r == "°C" <==> u == Metric
    ensures r == "°F" <==> u == Imperial
  {
    match u
    case Metric => "°C"
    case Imperial => "°F"
  }

  /** The wind speed unit label of the current-weather card. */
  function WindUnitLabel(u: Units): (r: string)
    ensures r == "m/s" <==> u == Metric
    ensures r == "mph" <==> u == Imperial
  {
    match u
    case Metric => "m/s"
    case Imperial => "mph"
  }

  /** The labels tell the two unit systems apart; metric is Celsius and metres per second. */
  lemma UnitLabels()
    ensures TempUnitLabel(Metric) == "°C" && WindUnitLabel(Metric) == "m/s"
    ensures TempUnitLabel(Imperial) == "°F" && WindUnitLabel(Imperial) == "mph"
    ensures forall u, v :: TempUnitLabel(u) == TempUnitLabel(v) ==> u == v
  {
  }

  /** JavaScript truthiness of an optional number: present and non-zero. */
  predicate Truthy(x: Option<int>)
  {
    x.Some? && x.value != 0
  }

  /** `minTemp && maxTemp && minTemp !== maxTemp`, over already-rounded temperatures. */
  function ShowsRangeAsWritten(minTemp: Option<int>, maxTemp: Option<int>): (r: bool)
    ensures r ==> ShowsRange(minTemp, maxTemp)
    ensures (minTemp == Some(0) || maxTemp == Some(0)) ==> !r
  {
    Truthy(minTemp) && Truthy(maxTemp) && minTemp.value != maxTemp.value
  }

  /** The range shows whenever both bounds are present and differ. */
  predicate ShowsRange(minTemp: Option<int>, maxTemp: Option<int>)
  {
    minTemp.Some? && maxTemp.Some? && minTemp.value != maxTemp.value
  }

  /** As written, a bound of 0 degrees hides the range: min 0, max 5 is not shown. */
  lemma ZeroBoundHidesRange()
    ensures !ShowsRangeAsWritten(Some(0), Some(5))
    ensures ShowsRange(Some(0), Some(5))
  {
  }

  /** The two differ exactly when the corrected condition shows the range and a bound is 0. */
  lemma ShowsRangeAgreesAwayFromZero(minTemp: Option<int>, maxTemp: Option<int>)
    ensures (ShowsRangeAsWritten(minTemp, maxTemp) == ShowsRange(minTemp, maxTemp))
            <==> !(ShowsRange(minTemp, maxTemp) && (minTemp.value == 0 || maxTemp.value == 0))
  {
  }
}
